=== FILE: README.md ===
# shaderpaper configuration and uniform upload, modelled in Dafny

This project models the decision logic of shaderpaper, a program that runs
a fragment shader as a desktop wallpaper. It covers two independent
configuration readers and the per-frame uniform upload:

- `IniParser` models `parseContextCreate` and `parseContextGetValue` of
  src/parser.cpp.
  - A text is split into lines as `std::getline` does.
  - Blank and comment lines are skipped, and `[section]` headers are tracked.
  - Each `key=value` line is split at its first `=` and trimmed.
  - The pair is stored in a nested map, section -> key -> value.
  - The `std::out_of_range` that `substr(npos, ...)` throws for an empty
    key or a blank value is an explicit `Failure`.
- `CfgScan` models `cfgGet` of src/main.c.
  - It is a scan of the raw text, scoped to the line after the first
    `[sec]` and ending at the next `[`.
  - It answers the first whitespace-delimited token of the first line that
    starts exactly with `key=`.
  - It passes over lines of 512 characters or more and over `key=` lines
    with no token.
  - The answer is truncated to `bufSize - 1` characters.
  - The `snprintf` truncation of the header and the key prefix to 511
    characters is modelled.
- `SessionConfig` models `getShaderMode` and `SessionConfigurationParse`
  of src/main.c. The file's content is an `Option` parameter (None when the
  file cannot be read).
- `Uniforms` models `shaderUniformsLoad` of src/main.c as the sequence of
  driver calls it makes:
  - a write for each uniform whose location is not -1, in the order of the
    code;
  - an activation and binding for each nonzero user texture, in ascending
    unit order;
  - a final `glUseProgram(0)`.
- `Text` holds the C-library and `std::string` searches both readers use:
  `strchr`, `strstr`, `strcmp`, `sscanf("%s")`, `find`,
  `find_first_not_of` and `find_last_not_of`.
- `Wrappers` holds `Option` and `Result`.

The model follows the code as written. In particular:

- `getShaderMode` tests `strcmp(...)` for being nonzero. It therefore
  answers SHADER for every string other than `"shader"`, and NONE for
  `"shader"` itself. `ConfigRoundTrip` states this outcome.
- The shader paths are read from section `shader`, under the keys
  `vertexshader` and `fragmentShader` (note the capital `S`).
- Uniform names carry a `u` prefix (`uQuality`, ..., `uUserTextures`).
- Locations are stored in `GLuint` fields. So the test `!= -1` compares
  against 0xFFFFFFFF, the value -1 takes once stored (`StoredLocation`,
  `AbsentLocation`).
- The upload order is the order of the code. `uMaxVolume` comes right
  after `uVolume` and before the integer arrays.

Text is modelled as a sequence of characters, and each character stands for
one byte of the file. So the length limits of `cfgGet` count characters in
the model:
- lines of 512 bytes or more are passed over;
- `snprintf` keeps 511 bytes of the header and the key prefix;
- the answer is cut to `bufSize - 1` bytes.

`fileRead` returns a NUL-terminated buffer, and both readers stop at the
first NUL in it. So the file content the model takes is the text before
its first NUL: a `CString`, a string with no NUL in it.

src/main.c and src/parser.cpp contain no code for the following, so none of it is modelled:

- a framebuffer or upscaling step;
- texture keys in the configuration;
- an error overlay.

The code reads exactly two sections, `general` and `shader`. A file may hold others; `cfgGet` searches past them.

## Model

| member | source | states |
|---|---|---|
| Text.StrCmp | src/main.c:238 | `strcmp` answers zero exactly when two NUL-free strings are equal |
| Text.IndexOf | src/main.c:181 | `strchr`/`find` answer the first index at or after the start holding the character, and None exactly when there is none |
| Text.IndexOfSub | src/main.c:178 | `strstr` answers the first occurrence of the pattern at or after the start, and None exactly when it occurs nowhere |
| Text.FirstNotIn | src/parser.cpp:19 | `find_first_not_of` answers the first index outside the set, or `npos` (None) when every character is inside it |
| Text.LastNotIn | src/parser.cpp:36 | `find_last_not_of` answers the last index outside the set, or `npos` (None) when every character is inside it |
| Text.Token | src/main.c:218 | the `%s` conversion reads the first maximal run of non-white-space after leading white space, and reads nothing exactly when the rest of the line is white space |
| Text.TokenOfPaddedWord | src/main.c:218 | a word between white space (or the line's end) is read back exactly |
| Text.Truncate | src/main.c:219 | the answer is a prefix of the string; a string of at most `n` characters is kept whole, and a longer one keeps exactly `n` |
| Text.DropLeadingAgrees | src/parser.cpp:35-41 | `find_first_not_of` followed by `substr` removes exactly the leading run of the set |
| Text.DropTrailingAgrees | src/parser.cpp:36-41 | cutting at `find_last_not_of` removes exactly the trailing run of the set |
| IniParser.Assign | src/parser.cpp:43 | storing a pair makes its lookup answer the new value and leaves every other (section, key) lookup as it was |
| IniParser.GetValue | src/parser.cpp:51-54 | the lookup answers the stored value, or null when none is stored; the section `operator[]` inserts changes no later lookup |
| IniParser.SplitLines | src/parser.cpp:14-18 | no extracted line holds an LF |
| IniParser.SplitJoin | src/parser.cpp:14-18 | lines without LFs, joined with LFs, are extracted back unchanged |
| IniParser.JoinSplit | src/parser.cpp:14-18 | the extracted lines rejoined give the text back, plus a final LF if it lacked one |
| IniParser.TrimKey | src/parser.cpp:35-37 | trimming a key throws exactly when the key is all blanks; otherwise the key kept is non-empty and neither starts nor ends with a blank |
| IniParser.TrimValue | src/parser.cpp:39-41 | trimming a value throws exactly when the value is all blanks; a value holding anything besides blanks, CRs and LFs keeps a non-empty text that starts with no blank and ends with no blank, CR or LF |
| IniParser.ProcessLine | src/parser.cpp:19-45 | a line of spaces, tabs, CRs and LFs changes nothing; a line changes the section or the map, never both; and a stored pair goes under the current section only |
| IniParser.Parse | src/parser.cpp:11-49 | `parseContextCreate` throws exactly when one of the text's lines throws |
| IniParser.TrimKeyTrims | src/parser.cpp:35-37 | a key is stored without its leading and trailing blanks; an all-blank key throws |
| IniParser.TrimValueTrims | src/parser.cpp:39-41 | a value loses leading blanks and trailing blanks, CRs and LFs; a value of blanks only throws; a value of blanks, CRs and LFs hits the `npos` wrap-around |
| IniParser.SkippedLineUnchanged | src/parser.cpp:19-21 | blank lines and lines whose first non-white character is `#` or `;` change neither the map nor the section |
| IniParser.LeadingSpaceIgnored | src/parser.cpp:19-23 | leading spaces, tabs, CRs and LFs do not change what a line does |
| IniParser.HeaderSetsSection | src/parser.cpp:24-28 | a `[` line with a `]` sets the section to the untrimmed text between `[` and the first `]`, ignoring what follows |
| IniParser.UnclosedHeaderIgnored | src/parser.cpp:24-28 | a `[` line with no `]` changes nothing |
| IniParser.LineWithoutEqualsIgnored | src/parser.cpp:30-31 | a non-header line with no `=` changes nothing |
| IniParser.PairLine | src/parser.cpp:30-43 | a pair line is split at its first `=` (the value may hold more), and the trimmed pair is stored under the current section, overwriting any earlier value |
| IniParser.PairAt | src/parser.cpp:30-43 | a line whose first `=` is at `e` stores the trimmed key and value, or throws when either trim throws |
| IniParser.EmptyKeyThrows | src/parser.cpp:32-37 | a line with nothing before its `=` throws `std::out_of_range` |
| IniParser.ParseFailsIffSomeLineThrows | src/parser.cpp:18-46 | parsing fails exactly when some line throws, whatever state it meets |
| IniParser.ParseEntries | src/parser.cpp:18-46 | parsing rendered header and pair lines gives each (section, key) its last value: later pairs overwrite and nothing else changes |
| IniParser.ParseRoundTrip | src/parser.cpp:11-54 | render (section, key, value) triples as `[s]`/`k=v` lines, parse, and each lookup answers the last value given for its pair, or null |
| IniParser.PairBeforeHeaderInDefaultSection | src/parser.cpp:16-43 | a pair before any header is stored under the section named "" |
| CfgScan.Bounded | src/main.c:176 | `snprintf` into a 512-byte buffer keeps a prefix: a string shorter than 512 whole, and exactly 511 characters of a longer one |
| CfgScan.SearchStart | src/main.c:174-188 | without a section the scan starts at the beginning; with one it starts after the LF ending the line of the header's first occurrence, and fails exactly when the header is absent or no LF follows it |
| CfgScan.SearchEnd | src/main.c:185-193 | the scan ends at the first `[` at or after its start, or at the end of the text |
| CfgScan.LineEnd | src/main.c:202-207 | a line ends at its LF or at the end of the text |
| CfgScan.Answer | src/main.c:218-219 | the buffer receives a prefix of the token after `key=`: the whole token when it is shorter than `bufSize`, exactly `bufSize - 1` characters otherwise, never white space, and something for an accepted line when `bufSize > 1` |
| CfgScan.FirstMatchIsFirst | src/main.c:201-224 | the loop stops at the first line start before the end that it accepts, and answers nothing exactly when there is none |
| CfgScan.CfgGet | src/main.c:169-226 | `cfgGet` fails on a null text, key or buffer, a zero size, or a missing section; an answer is shorter than `bufSize`, non-empty when `bufSize > 1`, and free of white space |
| CfgScan.CfgGetIsFirstMatch | src/main.c:198-225 | `cfgGet` fails exactly when no line of the region starts with `key=` and holds a token, and otherwise answers from the first such line |
| CfgScan.CfgGetAnswersAt | src/main.c:217-220 | when the scan stops at `q`, `cfgGet` answers the token of the line at `q`, truncated |
| CfgScan.AnswerOfWordLine | src/main.c:217-220 | the answer for a line `key=w`, with `w` a word that fits the buffer, is `w` |
| CfgScan.WordLineAccepted | src/main.c:209-221 | a short line `key=w` is accepted and reads `w` |
| CfgScan.ScanPassesLine | src/main.c:209-223 | the scan moves past a line it does not accept to the next one |
| CfgScan.ScanStopsAtLine | src/main.c:217-220 | the scan stops at a line it accepts |
| CfgScan.SearchStartAt | src/main.c:178-183 | the first header occurrence at `m` and the next LF at `nl` put the scan's start at `nl + 1` |
| SessionConfig.GetShaderMode | src/main.c:236-240 | NONE exactly for `"shader"` and SHADER for every other string, the inverted test |
| SessionConfig.ReadShaderPaths | src/main.c:261-262 | the paths are read exactly when both `shader`/`vertexshader` and `shader`/`fragmentShader` are present, and they are the values read |
| SessionConfig.ParseSessionConfiguration | src/main.c:249-266 | an unread file fails; in NONE mode the paths are left as they were; in SHADER mode both paths are non-empty and shorter than the buffer |
| SessionConfig.ParseSucceedsIffKeysPresent | src/main.c:250-265 | parsing succeeds exactly when `general`/`shadermode` is present and, in SHADER mode only, both shader keys are present |
| SessionConfig.ParsedFieldsAreTheValuesRead | src/main.c:257-262 | on success the mode is that of the `shadermode` value, and in SHADER mode the paths are the values read |
| SessionConfig.ModeReadBack | src/main.c:257 | in a written file, `general`/`shadermode` reads back as the mode written |
| SessionConfig.VertexReadBack | src/main.c:261 | in a written file, `shader`/`vertexshader` reads back as the path written |
| SessionConfig.FragmentReadBack | src/main.c:262 | in a written file, `shader`/`fragmentShader` reads back as the path written, past the vertex line |
| SessionConfig.ConfigRoundTrip | src/main.c:249-266 | a written configuration parses back: mode `"shader"` gives NONE with the old paths, and any other mode gives SHADER with the two paths written |
| Uniforms.StoredLocation | src/main.c:317 | a `GLint` location stored in a `GLuint` field keeps a non-negative value and has 2^32 added to a negative one, so -1 becomes 0xFFFFFFFF |
| Uniforms.UnitIndices | src/main.c:361-362 | the sampler array holds unit `i` at index `i`, for 32 units |
| Uniforms.Slots | src/main.c:316-364 | the 17 uploads the code tests, in order: the `a`-th goes to the location that `shaderUniformsInitLocations` looks up under the `a`-th uniform name |
| Uniforms.Uploads | src/main.c:342-364 | the upload part is no longer than the slots and holds only writes, none of them to the absent location |
| Uniforms.UploadsArePresentSlots | src/main.c:342-364 | the upload part holds only writes, and an upload is among them exactly when its location is not -1 |
| Uniforms.SlotOf | src/main.c:342-364 | each write comes from a uniform whose location is present |
| Uniforms.WriteOf | src/main.c:342-364 | each uniform whose location is present has a write, found at a position whose slot is that uniform |
| Uniforms.WritesMatchPresentSlots | src/main.c:342-364 | writes and uniforms with a present location correspond one to one, so there is exactly one write per such uniform |
| Uniforms.UploadsKeepSlotOrder | src/main.c:342-364 | writes come in the order the code tests the uniforms |
| Uniforms.Binds | src/main.c:366-371 | the texture loop from unit `i` makes in all at most twice as many calls as there are texture ids from `i` on, and activates only units it visits whose texture id is nonzero |
| Uniforms.Trace | src/main.c:341-374 | a trace is non-empty, at most as long as the slots plus twice the texture ids plus one, and ends with `glUseProgram(0)` |
| Uniforms.Load | src/main.c:341-374 | `shaderUniformsLoad` makes at most 17 + 64 + 1 calls and ends with `glUseProgram(0)` |
| Uniforms.TraceWrites | src/main.c:341-374 | the writes of the whole trace are those of the uniforms with a present location, exactly one write for each, at positions matched one to one with those uniforms |
| Uniforms.UploadIffPresent | src/main.c:342-364 | `shaderUniformsLoad` writes a uniform exactly when its location is not -1, and writes it exactly once |
| Uniforms.ArrayCountsMatch | src/main.c:343-363 | every vector write has count 1 and three floats, and every integer-array write passes as many elements as its count, which is 32 or 128 |
| Uniforms.SlotWritten | src/main.c:342-364 | the upload in a given slot is made exactly when its location is not -1 |
| Uniforms.StateArraysGetTheirCounts | src/main.c:356-358 | `uKeyStates` and `uJoyStates` are written with count 32 and their own arrays, and `uSampleStates` with count 128 and the samples, each exactly when its location is not -1 |
| Uniforms.CameraVectorsGetTheirValues | src/main.c:343-344 | `uCameraPosition` and `uCameraVelocity` are written with count 1 and their own vectors, each exactly when its location is not -1 |
| Uniforms.SamplerGetsUnits | src/main.c:360-364 | the sampler array, when present, is written with the units 0 to 31 |
| Uniforms.BindsActivateNonzero | src/main.c:366-371 | the texture loop activates unit `i` exactly when `userTexturesId[i]` is nonzero |
| Uniforms.BindsPairedAscending | src/main.c:366-371 | the loop's calls come as activation/binding pairs for rising units |
| Uniforms.TraceActivatesNonzero | src/main.c:366-371 | in the trace, unit `i` is activated exactly when its texture id is nonzero, and no texture 0 is bound |
| Uniforms.TraceBindsAfterActivation | src/main.c:366-371 | each activation is directly followed by binding that unit's texture to `GL_TEXTURE_2D` |
| Uniforms.TraceActivatesAscending | src/main.c:366-371 | units are activated in ascending order |
| Uniforms.TraceEndsWithUseProgram | src/main.c:373 | the trace always ends with `glUseProgram(0)`, and that is its only `glUseProgram` |

## Left out

- X11/GLX window and context setup, `main`, the render loop, event handling and `usleep`: these are I/O and timing.
- `fileRead` and the file reading in `glShaderCompile`: the file's content is an `Option` parameter.
- Shader compilation and linking, `glQuadLoad`, `glMeshDispose`, `shaderSessionLoad` and `shaderSessionDispose`: these are calls into a graphics driver.
- `shaderUniformsInitLocations`: it only calls `glGetUniformLocation`. The names it uses are `UniformNames`, the field each name fills is `LocationNamed`, and the conversion it performs when storing a location is `StoredLocation`.
- `shaderSessionLoad` never resolves the locations before uploading, so the locations a session uploads with are not modelled. `shaderUniformsLoad` takes them as input.
- `glTextureLoad` and `glTexturePackLoad`: the first has an empty body and returns nothing; the second has an unchecked count. Neither has a defined behaviour.
- Uniform values: floats and `int` payloads are carried along opaquely, and no arithmetic is modelled.
- The `program` argument of `shaderUniformsLoad`: it is never used.
- `parseContextDispose`: memory management.
- The `fprintf(stderr, ...)` message for an unreadable configuration file (src/main.c:252): it is output only. The failure itself is the `Failure(ConfigNotFound)` result of `ParseSessionConfiguration`.
- The messages `shaderSessionLoad` prints for a configuration that does not parse and for shaders that do not compile (src/main.c:384, 391): that function is left out with the graphics-driver calls above.
- Multi-byte text: a character stands for one byte, and no encoding is modelled.
- src/parser.h: it holds declarations only.
- C memory hazards are not modelled as memory:
  - `shadermode` is a 256-byte buffer passed with size 512;
  - `sscanf` writes the whole token before `cfgGet` truncates it.

  Both are modelled as their evidently intended result, the token truncated to `bufSize - 1` characters.
- Text.StrCmp: compares characters as Unicode code points, not as `unsigned char` bytes. Only whether the result is zero is used.
- SessionConfig.ParseSessionConfiguration: a failure returns only the error, not the partly written structure. An unread file or a missing `shadermode` writes nothing. On a failure after `shadermode` was read, `mode` is already written, and in SHADER mode, when only `fragmentShader` is missing, `vertexShader` is written too.
- SessionConfig.ConfigRoundTrip: covers values that are words of fewer than 497 characters with no white space, `[` or NUL. That bound keeps every line, `fragmentShader=` plus the word included, under 512 characters. A fragment path of 497 characters or more makes its line 512 or longer, and `cfgGet` skips such a line. A mode word of 497 to 500 characters is still read, but the round trip does not cover it.
- IniParser.ParseRoundTrip: covers triples whose section has no `]`, whose key is non-empty, unpadded and free of `=` with no leading `[`, `#` or `;`, and whose value is non-empty and unpadded. Other triples do not survive the text format.

=== FILE: cfg_scan.dfy ===
/** `cfgGet` of src/main.c: a scan of raw configuration text for the first
    line of a section that starts with `key=`, answering the first
    white-space-delimited token after it. */
module CfgScan {
  import opened Wrappers
  import opened Text

  /** MAX_LINE_LENGTH: the size of the header, key-prefix and line buffers. */
  const MaxLineLength: nat := 512

  /** What `snprintf` leaves in a MaxLineLength buffer: at most
      MaxLineLength - 1 characters of `s`. */
  function Bounded(s: string): (r: string)
    ensures |r| < MaxLineLength && r <= s
    ensures |s| < MaxLineLength ==> r == s
    ensures |s| >= MaxLineLength ==> |r| == MaxLineLength - 1
  {
    Truncate(s, MaxLineLength - 1)
  }

  /** The header searched for, `"[%s]"` of the section name. */
  function SectionHeader(sec: string): string {
    Bounded("[" + sec + "]")
  }

  /** The prefix a matching line starts with, `"%s="` of the key. */
  function KeyPrefix(key: string): string {
    Bounded(key + "=")
  }

  /** `pat` occurs at `m` and nowhere before. */
  predicate FirstOccurrence(text: string, pat: string, m: nat) {
    Occurs(text, m, pat) && forall i :: 0 <= i < m ==> !Occurs(text, i, pat)
  }

  /** Where the scan starts: the whole text without a section; with one,
      just after the LF that ends the line holding the first occurrence of
      its header. None (a return of 1) when the header does not occur or no
      LF follows its first occurrence. */
  function SearchStart(text: CString, sec: Option<CString>): (r: Option<nat>)
    ensures sec.None? ==> r == Some(0)
    ensures sec.Some? ==>
      (r.Some? <==> exists m: nat, n: nat :: Occurs(text, m, SectionHeader(sec.value)) && m <= n < |text| && text[n] == '\n')
    ensures r.Some? && sec.Some? ==>
      && 0 < r.value <= |text| && text[r.value - 1] == '\n'
      && exists m: nat :: FirstOccurrence(text, SectionHeader(sec.value), m) && m < r.value
                     && forall j :: m <= j < r.value - 1 ==> text[j] != '\n'
  {
    match sec
    case None => Some(0)
    case Some(s) =>
      var h := SectionHeader(s);
      match IndexOfSub(text, 0, h)
      case None => None
      case Some(m) =>
        match IndexOf(text, m, '\n')
        case None =>
          assert forall m': nat, n: nat :: Occurs(text, m', h) && m' <= n < |text| ==> text[n] != '\n';
          None
        case Some(nl) =>
          assert FirstOccurrence(text, h, m);
          Some(nl + 1)
  }

  /** Where the scan ends: the first `[` at or after `start`, or the end of
      the text. */
  function SearchEnd(text: string, start: nat): (r: nat)
    requires start <= |text|
    ensures start <= r <= |text|
    ensures forall j :: start <= j < r ==> text[j] != '['
    ensures r < |text| ==> text[r] == '['
  {
    match IndexOf(text, start, '[')
    case None => |text|
    case Some(b) => b
  }

  /** The end of the line starting at `p`: its LF, or the end of the text. */
  function LineEnd(text: string, p: nat): (r: nat)
    requires p <= |text|
    ensures p <= r <= |text|
    ensures forall j :: p <= j < r ==> text[j] != '\n'
    ensures r < |text| ==> text[r] == '\n'
  {
    match IndexOf(text, p, '\n')
    case None => |text|
    case Some(e) => e
  }

  /** The line starting at `p`, without its LF. */
  function LineAt(text: string, p: nat): string
    requires p <= |text|
  {
    text[p..LineEnd(text, p)]
  }

  /** A line the scan answers from: shorter than MaxLineLength, starting
      with the prefix exactly, and holding something other than white space
      after it, so that `%s` reads a token. */
  predicate Accepts(line: string, prefix: string) {
    |line| < MaxLineLength && prefix <= line && !AllCSpace(line[|prefix|..])
  }

  /** `q` is a line start the scan reaches from `start`. */
  predicate LineStart(text: string, start: nat, q: nat) {
    start <= q <= |text| && (q == start || text[q - 1] == '\n')
  }

  /** A line start before `end` whose line the scan accepts. */
  predicate Matches(text: string, start: nat, end: nat, prefix: string, q: nat) {
    LineStart(text, start, q) && q < end && Accepts(LineAt(text, q), prefix)
  }

  /** A match with no match before it. */
  predicate FirstMatchAt(text: string, start: nat, end: nat, prefix: string, q: nat) {
    Matches(text, start, end, prefix, q)
    && forall q' :: start <= q' < q && LineStart(text, start, q') ==> !Accepts(LineAt(text, q'), prefix)
  }

  /** The loop of `cfgGet` from `pos` on: the line start it stops at.
      Every line that starts before `end` is examined whole, even where it
      runs past `end`; overlong lines and `key=` lines without a token are
      passed over. */
  function ScanFrom(text: string, pos: nat, end: nat, prefix: string): Option<nat>
    requires pos <= |text| && end <= |text|
    decreases |text| - pos
  {
    if pos >= end then None
    else if Accepts(LineAt(text, pos), prefix) then Some(pos)
    else
      match IndexOf(text, pos, '\n')
      case None => None
      case Some(e) => ScanFrom(text, e + 1, end, prefix)
  }

  /** The scan as callers see it. Stating the facts below about this
      non-recursive entry point keeps the recursion folded in the proofs
      about whole configuration texts, which otherwise unroll it line by
      line. */
  function FirstMatch(text: string, pos: nat, end: nat, prefix: string): Option<nat>
    requires pos <= |text| && end <= |text|
  {
    ScanFrom(text, pos, end, prefix)
  }

  /** Line starts after the one at `pos` are line starts after the LF at
      `e` that ends it. */
  lemma LineStartsAfter(text: string, pos: nat, e: nat)
    requires pos <= |text| && IndexOf(text, pos, '\n') == Some(e)
    ensures forall q :: LineStart(text, pos, q) && q != pos ==> LineStart(text, e + 1, q)
  {
  }

  /** A match after a line the scan does not accept is a match from the
      next line on. */
  lemma MatchAfter(text: string, pos: nat, end: nat, prefix: string, e: nat, q: nat)
    requires pos <= |text| && IndexOf(text, pos, '\n') == Some(e)
    requires !Accepts(LineAt(text, pos), prefix)
    requires Matches(text, pos, end, prefix, q)
    ensures Matches(text, e + 1, end, prefix, q)
  {
    LineStartsAfter(text, pos, e);
  }

  /** The first match from the next line on is the first match from a line
      the scan does not accept. */
  lemma FirstMatchAtAfter(text: string, pos: nat, end: nat, prefix: string, e: nat, q: nat)
    requires pos <= |text| && IndexOf(text, pos, '\n') == Some(e)
    requires !Accepts(LineAt(text, pos), prefix)
    requires FirstMatchAt(text, e + 1, end, prefix, q)
    ensures FirstMatchAt(text, pos, end, prefix, q)
  {
    LineStartsAfter(text, pos, e);
  }

  /** `r` is what a scan from `pos` should answer: the first match, or None
      when there is no match. */
  ghost predicate ScanSpec(text: string, pos: nat, end: nat, prefix: string, r: Option<nat>) {
    && (r.Some? ==> FirstMatchAt(text, pos, end, prefix, r.value))
    && (r.None? ==> forall q :: !Matches(text, pos, end, prefix, q))
  }

  /** An answer right for the scan from the next line is right for the scan
      from a line it does not accept. */
  lemma ScanSpecStep(text: string, pos: nat, end: nat, prefix: string, e: nat, r: Option<nat>)
    requires pos <= |text| && IndexOf(text, pos, '\n') == Some(e)
    requires !Accepts(LineAt(text, pos), prefix)
    requires ScanSpec(text, e + 1, end, prefix, r)
    ensures ScanSpec(text, pos, end, prefix, r)
  {
    if r.Some? {
      FirstMatchAtAfter(text, pos, end, prefix, e, r.value);
    } else {
      forall q | Matches(text, pos, end, prefix, q)
        ensures false
      {
        MatchAfter(text, pos, end, prefix, e, q);
      }
    }
  }

  /** An accepted line at `pos` is the first match from `pos`. */
  lemma ScanSpecHere(text: string, pos: nat, end: nat, prefix: string)
    requires pos < end <= |text| && Accepts(LineAt(text, pos), prefix)
    ensures ScanSpec(text, pos, end, prefix, Some(pos))
  {
  }

  /** A last line the scan does not accept leaves no match. */
  lemma ScanSpecLast(text: string, pos: nat, end: nat, prefix: string)
    requires pos <= |text| && IndexOf(text, pos, '\n') == None
    requires !Accepts(LineAt(text, pos), prefix)
    ensures ScanSpec(text, pos, end, prefix, None)
  {
    assert forall q :: LineStart(text, pos, q) ==> q == pos;
  }

  /** The loop answers the first line start the scan accepts, and None
      exactly when there is none. */
  lemma {:induction false} FirstMatchIsFirst(text: string, pos: nat, end: nat, prefix: string)
    requires pos <= |text| && end <= |text|
    decreases |text| - pos
    ensures ScanSpec(text, pos, end, prefix, FirstMatch(text, pos, end, prefix))
  {
    if pos >= end {
    } else if Accepts(LineAt(text, pos), prefix) {
      FirstMatchHere(text, pos, end, prefix);
      ScanSpecHere(text, pos, end, prefix);
    } else {
      match IndexOf(text, pos, '\n')
      case None =>
        ScanSpecLast(text, pos, end, prefix);
      case Some(e) =>
        FirstMatchIsFirst(text, e + 1, end, prefix);
        FirstMatchSkip(text, pos, end, prefix, e);
        ScanSpecStep(text, pos, end, prefix, e, FirstMatch(text, e + 1, end, prefix));
    }
  }

  /** What `cfgGet` leaves in the buffer for the line at `q`: the token after
      the prefix, cut to `bufSize - 1` characters. */
  function Answer(text: string, q: nat, prefix: string, bufSize: nat): (r: string)
    requires q <= |text| && prefix <= LineAt(text, q)
    ensures var t := Token(LineAt(text, q)[|prefix|..]);
      && r <= t
      && (bufSize > 0 ==> |r| < bufSize)
      && (|t| < bufSize ==> r == t)
      && (|t| >= bufSize > 0 ==> |r| == bufSize - 1)
    ensures forall j :: 0 <= j < |r| ==> !IsCSpace(r[j])
    ensures bufSize > 1 && Accepts(LineAt(text, q), prefix) ==> r != []
  {
    Truncate(Token(LineAt(text, q)[|prefix|..]), if bufSize == 0 then 0 else bufSize - 1)
  }

  /** `cfgGet(text, sec, key, buf, bufSize)`. A null pointer is None; `buf`
      is Some(bufSize) for a buffer. The result None is the return value 1,
      Some(v) the return value 0 with `v` in the buffer. */
  function CfgGet(text: Option<CString>, sec: Option<CString>, key: Option<CString>, buf: Option<nat>)
    : (r: Option<string>)
    ensures text.None? || key.None? || buf.None? || buf.value == 0 ==> r == None
    ensures text.Some? && SearchStart(text.value, sec).None? ==> r == None
    ensures r.Some? ==> |r.value| < buf.value
    ensures r.Some? && buf.value > 1 ==> r.value != []
    ensures r.Some? ==> forall j :: 0 <= j < |r.value| ==> !IsCSpace(r.value[j])
  {
    if text.None? || key.None? || buf.None? || buf.value == 0 then None
    else
      match SearchStart(text.value, sec)
      case None => None
      case Some(start) =>
        var prefix := KeyPrefix(key.value);
        match FirstMatch(text.value, start, SearchEnd(text.value, start), prefix)
        case None => None
        case Some(q) =>
          FirstMatchIsFirst(text.value, start, SearchEnd(text.value, start), prefix);
          Some(Answer(text.value, q, prefix, buf.value))
  }

  /** cfgGet answers from the first line of the searched region that starts
      with the key prefix and holds a token after it, and fails exactly when
      the region holds no such line. */
  lemma CfgGetIsFirstMatch(text: CString, sec: Option<CString>, key: CString, bufSize: nat, start: nat)
    requires bufSize > 0 && SearchStart(text, sec) == Some(start)
    ensures var r := CfgGet(Some(text), sec, Some(key), Some(bufSize));
      var end := SearchEnd(text, start);
      && (r.None? <==> forall q :: !Matches(text, start, end, KeyPrefix(key), q))
      && forall q :: FirstMatchAt(text, start, end, KeyPrefix(key), q) ==>
           r == Some(Answer(text, q, KeyPrefix(key), bufSize))
  {
    var end := SearchEnd(text, start);
    var prefix := KeyPrefix(key);
    FirstMatchIsFirst(text, start, end, prefix);
    FirstMatchUnique(text, start, end, prefix, FirstMatch(text, start, end, prefix));
  }

  /** An answer meeting the scan's specification is the only first match. */
  lemma FirstMatchUnique(text: string, start: nat, end: nat, prefix: string, r: Option<nat>)
    requires ScanSpec(text, start, end, prefix, r)
    ensures forall q: nat :: FirstMatchAt(text, start, end, prefix, q) ==> r == Some(q)
  {
    forall q | FirstMatchAt(text, start, end, prefix, q)
      ensures r == Some(q)
    {
      var p := r.value;
      assert !(p < q) && !(q < p);
    }
  }

  // ---------------------------------------------------------------------
  // Stepping the scan over a known text.

  /** Naming the line at `p` pins LineAt. */
  lemma LineAtIs(text: string, p: nat, line: string)
    requires p + |line| <= |text| && text[p..p + |line|] == line && '\n' !in line
    requires p + |line| == |text| || text[p + |line|] == '\n'
    ensures LineAt(text, p) == line
  {
    assert forall j :: p <= j < p + |line| ==> text[j] == line[j - p];
    if p + |line| < |text| {
      IndexOfLands(text, p, '\n', p + |line|);
    }
  }

  /** A line `prefix + w` with `w` a short word is accepted, and its answer
      is `w` for a buffer of MaxLineLength. */
  lemma WordLineAccepted(prefix: string, w: string)
    requires w != [] && |prefix| + |w| < MaxLineLength
    requires forall j :: 0 <= j < |w| ==> !IsCSpace(w[j])
    ensures Accepts(prefix + w, prefix)
    ensures Token((prefix + w)[|prefix|..]) == w
  {
    assert (prefix + w)[|prefix|..] == w;
    TokenOfPaddedWord([], w, []);
    assert [] + w + [] == w;
  }

  /** The scan answers the line it starts at when that line is accepted. */
  lemma FirstMatchHere(text: string, pos: nat, end: nat, prefix: string)
    requires pos < end <= |text| && Accepts(LineAt(text, pos), prefix)
    ensures FirstMatch(text, pos, end, prefix) == Some(pos)
  {
  }

  /** The scan passes over a line it does not accept to the one after the
      LF at `e` that ends it. */
  lemma FirstMatchSkip(text: string, pos: nat, end: nat, prefix: string, e: nat)
    requires pos < end <= |text| && !Accepts(LineAt(text, pos), prefix)
    requires IndexOf(text, pos, '\n') == Some(e)
    ensures FirstMatch(text, pos, end, prefix) == FirstMatch(text, e + 1, end, prefix)
  {
  }

  /** `line` sits in `pre + line + post` right after `pre`. */
  lemma MiddleSlice(text: string, pre: string, line: string, post: string)
    requires text == pre + line + post
    ensures text[|pre|..|pre| + |line|] == line
  {
    assert forall k :: 0 <= k < |line| ==> text[|pre| + k] == line[k];
  }

  /** `line` sits in `pre + line + post` right after `pre`, followed by the
      LF that starts `post`. */
  lemma LineBeforeFeed(text: string, pre: string, line: string, post: string)
    requires text == pre + line + post && post != [] && post[0] == '\n'
    ensures |pre| + |line| < |text| && text[|pre|..|pre| + |line|] == line
    ensures text[|pre| + |line|] == '\n'
  {
    MiddleSlice(text, pre, line, post);
    assert text[|pre| + |line|] == post[0];
  }

  /** The scan passes over the line at `pos` when it does not accept it. */
  lemma ScanPassesAt(text: string, pos: nat, end: nat, prefix: string, line: string)
    requires pos < end <= |text| && !Accepts(line, prefix)
    requires pos + |line| < |text| && text[pos..pos + |line|] == line && '\n' !in line
    requires text[pos + |line|] == '\n'
    ensures FirstMatch(text, pos, end, prefix) == FirstMatch(text, pos + |line| + 1, end, prefix)
  {
    LineAtIs(text, pos, line);
    IndexOfLands(text, pos, '\n', pos + |line|);
    FirstMatchSkip(text, pos, end, prefix, pos + |line|);
  }

  /** The scan stops at the line at `pos` when it accepts it. */
  lemma ScanStopsAt(text: string, pos: nat, end: nat, prefix: string, line: string)
    requires pos < end <= |text| && Accepts(line, prefix)
    requires pos + |line| <= |text| && text[pos..pos + |line|] == line && '\n' !in line
    requires pos + |line| == |text| || text[pos + |line|] == '\n'
    ensures FirstMatch(text, pos, end, prefix) == Some(pos) && LineAt(text, pos) == line
  {
    LineAtIs(text, pos, line);
    FirstMatchHere(text, pos, end, prefix);
  }

  /** The scan passes over a whole line `line` it does not accept. */
  lemma ScanPassesLine(text: string, pre: string, line: string, post: string, end: nat, prefix: string)
    requires text == pre + line + post && |pre| < end <= |text|
    requires '\n' !in line && post != [] && post[0] == '\n' && !Accepts(line, prefix)
    ensures FirstMatch(text, |pre|, end, prefix) == FirstMatch(text, |pre| + |line| + 1, end, prefix)
  {
    LineBeforeFeed(text, pre, line, post);
    ScanPassesAt(text, |pre|, end, prefix, line);
  }

  /** The scan stops at a whole line `line` it accepts. */
  lemma ScanStopsAtLine(text: string, pre: string, line: string, post: string, end: nat, prefix: string)
    requires text == pre + line + post && |pre| < end <= |text|
    requires '\n' !in line && (post == [] || post[0] == '\n') && Accepts(line, prefix)
    ensures FirstMatch(text, |pre|, end, prefix) == Some(|pre|) && LineAt(text, |pre|) == line
  {
    MiddleSlice(text, pre, line, post);
    ScanStopsAt(text, |pre|, end, prefix, line);
  }

  /** cfgGet answers from the line at `q` when the scan of its region stops
      there. */
  lemma CfgGetAnswersAt(text: CString, sec: Option<CString>, key: CString, bufSize: nat, start: nat, q: nat)
    requires bufSize > 0 && SearchStart(text, sec) == Some(start)
    requires FirstMatch(text, start, SearchEnd(text, start), KeyPrefix(key)) == Some(q)
    ensures q <= |text| && KeyPrefix(key) <= LineAt(text, q)
    ensures CfgGet(Some(text), sec, Some(key), Some(bufSize)) == Some(Answer(text, q, KeyPrefix(key), bufSize))
  {
    FirstMatchIsFirst(text, start, SearchEnd(text, start), KeyPrefix(key));
  }

  /** The answer for a line `prefix + w`, with `w` a word that fits the
      buffer, is `w`. */
  lemma AnswerOfWordLine(text: string, q: nat, prefix: string, w: string, bufSize: nat)
    requires q <= |text| && LineAt(text, q) == prefix + w
    requires w != [] && |prefix| + |w| < MaxLineLength && |w| < bufSize
    requires forall j :: 0 <= j < |w| ==> !IsCSpace(w[j])
    ensures prefix <= LineAt(text, q) && Answer(text, q, prefix, bufSize) == w
  {
    WordLineAccepted(prefix, w);
  }

  /** The scan starts after the LF at `nl` that follows the header's first
      occurrence at `m`. */
  lemma SearchStartAt(text: CString, sec: CString, m: nat, nl: nat)
    requires IndexOfSub(text, 0, SectionHeader(sec)) == Some(m)
    requires IndexOf(text, m, '\n') == Some(nl)
    ensures SearchStart(text, Some(sec)) == Some(nl + 1)
  {
  }
}

=== FILE: ini_parser.dfy ===
/** The line-oriented INI reader of src/parser.cpp: `parseContextCreate`
    turns a text into a map section -> key -> value, `parseContextGetValue`
    looks one entry up. The `std::out_of_range` that `substr` throws on an
    empty key or a blank value is the `Failure` of the result. */
module IniParser {
  import opened Wrappers
  import opened Text

  type Section = map<string, string>
  type Values = map<string, Section>

  /** The reader's state between lines: the name of the last header seen
      and the pairs stored so far. */
  datatype Ctx = Ctx(section: string, values: Values)

  /** `std::out_of_range`, thrown by `substr(npos, ...)`. */
  datatype ParseError = OutOfRange

  /** What a line is stripped of before it is interpreted. */
  const LineSpace: set<char> := {' ', '\t', '\r', '\n'}

  /** What keys are trimmed of, and values on the left. */
  const Blank: set<char> := {' ', '\t'}

  /** The state before the first line: the default section is named "". */
  const Initial: Ctx := Ctx("", map[])

  // ---------------------------------------------------------------------
  // The map and its two accessors.

  /** The value stored for (section, key), if any. */
  function Lookup(values: Values, section: string, key: string): Option<string> {
    if section in values && key in values[section] then Some(values[section][key]) else None
  }

  /** `values[section][key] = value`: the entry is overwritten and every other
      entry is left as it was. */
  function Assign(values: Values, section: string, key: string, value: string): (r: Values)
    ensures Lookup(r, section, key) == Some(value)
    ensures forall s, k :: (s != section || k != key) ==> Lookup(r, s, k) == Lookup(values, s, k)
    ensures r.Keys == values.Keys + {section}
  {
    var inner := if section in values then values[section] else map[];
    values[section := inner[key := value]]
  }

  /** `parseContextGetValue`: the stored value or None (the null pointer),
      together with the map as `operator[]` leaves it, holding an empty
      section for a name it had not seen; no lookup answers differently
      afterwards. */
  function GetValue(values: Values, section: string, key: string): (r: (Option<string>, Values))
    ensures r.0 == Lookup(values, section, key)
    ensures forall s, k :: Lookup(r.1, s, k) == Lookup(values, s, k)
    ensures r.1.Keys == values.Keys + {section}
  {
    var inner := if section in values then values[section] else map[];
    (if key in inner then Some(inner[key]) else None, values[section := inner])
  }

  // ---------------------------------------------------------------------
  // Splitting into lines with `std::getline`.

  /** The lines `std::getline` extracts: the text split at each LF, the LF
      itself dropped, and no final empty line after a terminating LF. */
  function SplitLines(s: string): (r: seq<string>)
    decreases |s|
    ensures forall i :: 0 <= i < |r| ==> '\n' !in r[i]
  {
    if s == [] then []
    else match IndexOf(s, 0, '\n')
      case None => [s]
      case Some(i) =>
        assert forall j :: 0 <= j < i ==> s[..i][j] != '\n';
        [s[..i]] + SplitLines(s[i + 1..])
  }

  /** Each line followed by an LF. */
  function JoinLines(ls: seq<string>): string
    decreases |ls|
  {
    if ls == [] then [] else ls[0] + "\n" + JoinLines(ls[1..])
  }

  /** Lines without LFs come back from the text they are joined into. */
  lemma {:induction false} SplitJoin(ls: seq<string>)
    requires forall i :: 0 <= i < |ls| ==> '\n' !in ls[i]
    ensures SplitLines(JoinLines(ls)) == ls
    decreases |ls|
  {
    if ls != [] {
      var l0 := ls[0];
      var rest := JoinLines(ls[1..]);
      var s := JoinLines(ls);
      assert s == l0 + "\n" + rest;
      assert forall j :: 0 <= j < |l0| ==> s[j] == l0[j];
      IndexOfLands(s, 0, '\n', |l0|);
      assert s[..|l0|] == l0;
      assert s[|l0| + 1..] == rest;
      SplitJoin(ls[1..]);
      assert [l0] + ls[1..] == ls;
    }
  }

  /** Joining the lines of a text gives the text back, with an LF added
      when its last line had none. */
  lemma {:induction false} JoinSplit(s: string)
    ensures JoinLines(SplitLines(s)) == if s == [] || s[|s| - 1] == '\n' then s else s + "\n"
    decreases |s|
  {
    if s != [] {
      match IndexOf(s, 0, '\n')
      case None =>
        JoinSplitLast(s);
      case Some(i) =>
        var head := s[..i];
        var t := s[i + 1..];
        JoinSplitStep(s, i);
        JoinSplit(t);
        if t == [] {
          assert s == head + "\n";
        } else if t[|t| - 1] == '\n' {
          assert s[|s| - 1] == t[|t| - 1];
        } else {
          assert s[|s| - 1] == t[|t| - 1];
          Regroup(head + "\n", t, "\n");
        }
    }
  }

  /** A text without an LF is one line. */
  lemma JoinSplitLast(s: string)
    requires s != [] && IndexOf(s, 0, '\n').None?
    ensures JoinLines(SplitLines(s)) == s + "\n"
  {
    assert SplitLines(s) == [s];
    assert JoinLines([s]) == s + "\n" + JoinLines([]);
  }

  /** A text whose first LF is at `i` is its first line, that LF, and the
      lines after it. */
  lemma JoinSplitStep(s: string, i: nat)
    requires IndexOf(s, 0, '\n') == Some(i)
    ensures s == s[..i] + "\n" + s[i + 1..]
    ensures JoinLines(SplitLines(s)) == s[..i] + "\n" + JoinLines(SplitLines(s[i + 1..]))
  {
    AroundLineFeed(s, i);
    assert SplitLines(s) == [s[..i]] + SplitLines(s[i + 1..]);
    JoinLinesCons(s[..i], SplitLines(s[i + 1..]));
  }

  /** A text is what comes before an LF, the LF, and what comes after. */
  lemma AroundLineFeed(s: string, i: nat)
    requires i < |s| && s[i] == '\n'
    ensures s == s[..i] + "\n" + s[i + 1..]
  {
    assert s == s[..i] + s[i..];
    assert s[i..] == "\n" + s[i + 1..];
  }

  lemma JoinLinesCons(l: string, ls: seq<string>)
    ensures JoinLines([l] + ls) == l + "\n" + JoinLines(ls)
  {
    assert ([l] + ls)[1..] == ls;
  }

  // ---------------------------------------------------------------------
  // One line.

  /** Key trimming (`find_first_not_of(" \t")`, `find_last_not_of(" \t")`,
      `substr`): an all-blank key makes the first search answer `npos`,
      and `substr(npos, ...)` throws. */
  function TrimKey(key: string): (r: Result<string, ParseError>)
    ensures r.Failure? <==> AllIn(key, Blank)
    ensures r.Success? ==> r.value != [] && r.value[0] !in Blank && r.value[|r.value| - 1] !in Blank
  {
    match FirstNotIn(key, 0, Blank)
    case None => Failure(OutOfRange)
    case Some(a) =>
      var b := LastNotIn(key, Blank);
      if b.Some? then Success(key[a..b.value + 1])
      else assert false; Failure(OutOfRange)
  }

  /** Value trimming: blanks on the left, blanks, CRs and LFs on the right.
      An all-blank value makes `substr(npos, ...)` throw. When the value
      holds nothing but blanks, CRs and LFs, the right-hand search answers
      `npos` and the length `npos - a + 1` wraps around: to 0 when `a` is 0,
      and to a count past the end of the value otherwise. */
  function TrimValue(value: string): (r: Result<string, ParseError>)
    ensures r.Failure? <==> AllIn(value, Blank)
    ensures r.Success? && !AllIn(value, LineSpace) ==>
      r.value != [] && r.value[0] !in Blank && r.value[|r.value| - 1] !in LineSpace
  {
    match FirstNotIn(value, 0, Blank)
    case None => Failure(OutOfRange)
    case Some(a) =>
      match LastNotIn(value, LineSpace)
      case Some(b) => Success(value[a..b + 1])
      case None => if a == 0 then Success([]) else Success(value[a..])
  }

  /** One iteration of the loop of `parseContextCreate`. */
  function ProcessLine(ctx: Ctx, line: string): (r: Result<Ctx, ParseError>)
    ensures AllIn(line, LineSpace) ==> r == Success(ctx)
    ensures r.Success? ==> r.value.section == ctx.section || r.value.values == ctx.values
    ensures r.Success? ==> forall s, k :: s != ctx.section ==> Lookup(r.value.values, s, k) == Lookup(ctx.values, s, k)
  {
    match FirstNotIn(line, 0, LineSpace)
    case None => Success(ctx)
    case Some(start) =>
      if line[start] == '#' || line[start] == ';' then Success(ctx)
      else
        var l := line[start..];
        if l[0] == '[' then
          match IndexOf(l, 0, ']')
          case None => Success(ctx)
          case Some(end) => Success(ctx.(section := l[1..end]))
        else
          match IndexOf(l, 0, '=')
          case None => Success(ctx)
          case Some(eq) =>
            var key :- TrimKey(l[..eq]);
            var value :- TrimValue(l[eq + 1..]);
            Success(ctx.(values := Assign(ctx.values, ctx.section, key, value)))
  }

  /** The lines in order, from the initial state; the first throw aborts. */
  function ParseLines(lines: seq<string>): Result<Ctx, ParseError>
    decreases |lines|
  {
    if lines == [] then Success(Initial)
    else
      match ParseLines(lines[..|lines| - 1])
      case Failure(e) => Failure(e)
      case Success(ctx) => ProcessLine(ctx, lines[|lines| - 1])
  }

  /** `parseContextCreate`. */
  function Parse(text: CString): (r: Result<Values, ParseError>)
    ensures var lines := SplitLines(text);
      r.Failure? <==> exists i :: 0 <= i < |lines| && Throws(lines[i])
  {
    ParseFailsIffSomeLineThrows(SplitLines(text));
    match ParseLines(SplitLines(text))
    case Success(ctx) => Success(ctx.values)
    case Failure(e) => Failure(e)
  }

  // ---------------------------------------------------------------------
  // What one line does, stated on the shape of the line.

  /** The text a value is stored as: blanks dropped on the left, blanks, CRs
      and LFs on the right. A value made only of blanks, CRs and LFs is the
      wrap-around case: it is stored empty when it starts with a CR or LF,
      and otherwise from its first CR or LF to its end. */
  function StoredValue(value: string): string
    requires !AllIn(value, Blank)
  {
    if !AllIn(value, LineSpace) then DropTrailing(DropLeading(value, Blank), LineSpace)
    else if value[0] !in Blank then []
    else DropLeading(value, Blank)
  }

  /** A key is trimmed of blanks on both sides; an all-blank key throws. */
  lemma TrimKeyTrims(key: string)
    ensures TrimKey(key) == if AllIn(key, Blank) then Failure(OutOfRange)
                            else Success(DropTrailing(DropLeading(key, Blank), Blank))
  {
    DropLeadingAgrees(key, Blank);
    var first := FirstNotIn(key, 0, Blank);
    if first.Some? {
      var a := first.value;
      var last := LastNotIn(key, Blank);
      assert last.Some?;
      var b := last.value;
      assert a <= b;
      assert TrimKey(key) == Success(key[a..b + 1]);
      KeepUpToLast(key, a, b, Blank);
    }
  }

  /** Cutting a trailing run of `chars` off a suffix of `s`. */
  lemma KeepUpToLast(s: string, a: nat, b: nat, chars: set<char>)
    requires a <= b < |s| && s[b] !in chars
    requires forall j :: b < j < |s| ==> s[j] in chars
    ensures DropTrailing(s[a..], chars) == s[a..b + 1]
  {
    assert s[a..] == s[a..b + 1] + s[b + 1..];
    assert AllIn(s[b + 1..], chars);
    DropTrailingOfSuffix(s[a..b + 1], s[b + 1..], chars);
  }

  /** A value is stored as StoredValue says; an all-blank value throws. */
  lemma TrimValueTrims(value: string)
    ensures TrimValue(value) == if AllIn(value, Blank) then Failure(OutOfRange)
                                else Success(StoredValue(value))
  {
    DropLeadingAgrees(value, Blank);
    var first := FirstNotIn(value, 0, Blank);
    var last := LastNotIn(value, LineSpace);
    if first.Some? && last.Some? {
      var a := first.value;
      var b := last.value;
      assert !AllIn(value, LineSpace);
      assert a <= b;
      KeepUpToLast(value, a, b, LineSpace);
    }
  }

  /** Blank lines and comment lines (first non-white character `#` or `;`)
      change neither the map nor the current section. */
  lemma SkippedLineUnchanged(ctx: Ctx, line: string)
    requires var l := DropLeading(line, LineSpace); l == [] || l[0] == '#' || l[0] == ';'
    ensures ProcessLine(ctx, line) == Success(ctx)
  {
    DropLeadingAgrees(line, LineSpace);
  }

  /** Leading spaces, tabs, CRs and LFs do not change what a line does. */
  lemma LeadingSpaceIgnored(ctx: Ctx, ws: string, line: string)
    requires AllIn(ws, LineSpace)
    ensures ProcessLine(ctx, ws + line) == ProcessLine(ctx, line)
  {
    var s := ws + line;
    match FirstNotIn(line, 0, LineSpace)
    case None =>
      assert FirstNotIn(s, 0, LineSpace).None?;
    case Some(a) =>
      FirstNotInLands(s, 0, LineSpace, |ws| + a);
      assert s[|ws| + a..] == line[a..];
  }

  /** A header sets the section to the text strictly between `[` and the
      first `]`, untrimmed; what follows `]` is ignored. */
  lemma HeaderSetsSection(ctx: Ctx, ws: string, name: string, rest: string)
    requires AllIn(ws, LineSpace) && ']' !in name
    ensures ProcessLine(ctx, ws + "[" + name + "]" + rest) == Success(ctx.(section := name))
  {
    var l := "[" + name + "]" + rest;
    assert ws + "[" + name + "]" + rest == ws + l;
    LeadingSpaceIgnored(ctx, ws, l);
    FirstNotInLands(l, 0, LineSpace, 0);
    assert forall j :: 1 <= j < |name| + 1 ==> l[j] == name[j - 1];
    IndexOfLands(l, 0, ']', |name| + 1);
    assert l[0..] == l;
    assert l[1..|name| + 1] == name;
  }

  /** A `[` line without `]` changes nothing. */
  lemma UnclosedHeaderIgnored(ctx: Ctx, ws: string, l: string)
    requires AllIn(ws, LineSpace)
    requires |l| > 0 && l[0] == '[' && ']' !in l
    ensures ProcessLine(ctx, ws + l) == Success(ctx)
  {
    LeadingSpaceIgnored(ctx, ws, l);
    FirstNotInLands(l, 0, LineSpace, 0);
    assert l[0..] == l;
  }

  /** A key that starts a pair line: not empty, does not start with white
      space, a comment character or `[`, and holds no `=`. */
  predicate PlainKey(key: string) {
    && key != []
    && key[0] !in LineSpace && key[0] != '#' && key[0] != ';' && key[0] != '['
    && '=' !in key
  }

  /** A line that is not a comment or header and holds no `=` changes nothing. */
  lemma LineWithoutEqualsIgnored(ctx: Ctx, ws: string, l: string)
    requires AllIn(ws, LineSpace) && PlainKey(l)
    ensures ProcessLine(ctx, ws + l) == Success(ctx)
  {
    LeadingSpaceIgnored(ctx, ws, l);
    FirstNotInLands(l, 0, LineSpace, 0);
    assert l[0..] == l;
  }

  /** A pair line is split at its first `=`, so the value may hold further
      `=`; the key is stored trimmed of blanks and the value as StoredValue
      says, under the current section, overwriting any earlier value there.
      A value made of blanks only throws. */
  lemma PairLine(ctx: Ctx, ws: string, key: string, value: string)
    requires AllIn(ws, LineSpace) && PlainKey(key)
    ensures AllIn(value, Blank) ==> ProcessLine(ctx, ws + key + "=" + value) == Failure(OutOfRange)
    ensures !AllIn(value, Blank) ==>
      ProcessLine(ctx, ws + key + "=" + value)
        == Success(ctx.(values := Assign(ctx.values, ctx.section, DropTrailing(key, Blank), StoredValue(value))))
  {
    var l := key + "=" + value;
    assert ws + key + "=" + value == ws + l;
    LeadingSpaceIgnored(ctx, ws, l);
    PairLineSplits(key, value);
    PairAt(ctx, l, |key|);
    TrimKeyTrims(key);
    assert DropLeading(key, Blank) == key;
    assert !AllIn(key, Blank);
    TrimValueTrims(value);
  }

  /** `key=value` is split at the `=` after the key. */
  lemma PairLineSplits(key: string, value: string)
    requires PlainKey(key)
    ensures var l := key + "=" + value;
      && l[0] == key[0]
      && IndexOf(l, 0, '=') == Some(|key|) && l[..|key|] == key && l[|key| + 1..] == value
  {
    var l := key + "=" + value;
    assert forall j :: 0 <= j < |key| ==> l[j] == key[j];
    IndexOfLands(l, 0, '=', |key|);
    assert l[..|key|] == key;
    assert l[|key| + 1..] == value;
  }

  /** A line that starts with neither white space, a comment mark nor `[`
      and has its first `=` at `e` is a pair line: the key before the `=`
      and the value after it are trimmed, and either trim may throw. */
  lemma PairAt(ctx: Ctx, l: string, e: nat)
    requires l != [] && l[0] !in LineSpace && l[0] != '#' && l[0] != ';' && l[0] != '['
    requires IndexOf(l, 0, '=') == Some(e)
    ensures TrimKey(l[..e]).Failure? ==> ProcessLine(ctx, l) == Failure(OutOfRange)
    ensures TrimKey(l[..e]).Success? && TrimValue(l[e + 1..]).Failure? ==>
      ProcessLine(ctx, l) == Failure(OutOfRange)
    ensures TrimKey(l[..e]).Success? && TrimValue(l[e + 1..]).Success? ==>
      ProcessLine(ctx, l) == Success(ctx.(values := Assign(ctx.values, ctx.section, TrimKey(l[..e]).value, TrimValue(l[e + 1..]).value)))
  {
    FirstNotInLands(l, 0, LineSpace, 0);
    assert l[0..] == l;
  }

  /** A pair line with nothing before its `=` throws. */
  lemma EmptyKeyThrows(ctx: Ctx, ws: string, value: string)
    requires AllIn(ws, LineSpace)
    ensures ProcessLine(ctx, ws + "=" + value) == Failure(OutOfRange)
  {
    var l := "=" + value;
    assert ws + "=" + value == ws + l;
    LeadingSpaceIgnored(ctx, ws, l);
    FirstNotInLands(l, 0, LineSpace, 0);
    assert l[0..] == l;
    IndexOfLands(l, 0, '=', 0);
    assert l[..0] == [];
  }

  // ---------------------------------------------------------------------
  // Whole texts.

  /** A line throws: its key is empty or its value blank. */
  predicate Throws(line: string) {
    ProcessLine(Initial, line).Failure?
  }

  /** Whether a line throws does not depend on the state it meets. */
  lemma ThrowingIsStateFree(ctx: Ctx, line: string)
    ensures ProcessLine(ctx, line).Failure? == Throws(line)
  {
  }

  /** Parsing fails exactly when one of the lines throws. */
  lemma {:induction false} ParseFailsIffSomeLineThrows(lines: seq<string>)
    ensures ParseLines(lines).Failure? <==> exists i :: 0 <= i < |lines| && Throws(lines[i])
    decreases |lines|
  {
    if lines != [] {
      var init := lines[..|lines| - 1];
      var last := lines[|lines| - 1];
      ParseFailsIffSomeLineThrows(init);
      assert forall i :: 0 <= i < |init| ==> init[i] == lines[i];
      match ParseLines(init)
      case Failure(_) =>
      case Success(ctx) =>
        ThrowingIsStateFree(ctx, last);
    }
  }

  /** One (section, key, value) triple of a configuration to render. */
  datatype Entry = Entry(section: string, key: string, value: string)

  /** A triple that rendering as `[section]` and `key=value` lines and parsing
      back preserve: the section holds no `]`, the key is a PlainKey without
      trailing blanks, the value is not empty and not padded, and none of
      them holds an LF or a NUL. */
  predicate Renderable(e: Entry) {
    && ']' !in e.section && '\n' !in e.section && '\0' !in e.section
    && PlainKey(e.key) && e.key[|e.key| - 1] !in Blank && '\n' !in e.key && '\0' !in e.key
    && e.value != [] && e.value[0] !in Blank && e.value[|e.value| - 1] !in LineSpace
    && '\n' !in e.value && '\0' !in e.value
  }

  /** Each triple as a header line followed by a pair line. */
  function EntryLines(es: seq<Entry>): seq<string>
    decreases |es|
  {
    if es == [] then []
    else
      var e := es[|es| - 1];
      EntryLines(es[..|es| - 1]) + ["[" + e.section + "]", e.key + "=" + e.value]
  }

  /** No line of the rendering holds an LF or a NUL. */
  lemma {:induction false} EntryLinesAvoid(es: seq<Entry>, c: char)
    requires c == '\n' || c == '\0'
    requires forall i :: 0 <= i < |es| ==> Renderable(es[i])
    ensures forall i :: 0 <= i < |EntryLines(es)| ==> c !in EntryLines(es)[i]
    decreases |es|
  {
    if es != [] {
      EntryLinesAvoid(es[..|es| - 1], c);
      assert Renderable(es[|es| - 1]);
    }
  }

  /** Joining lines adds only LFs. */
  lemma {:induction false} JoinLinesAvoid(ls: seq<string>, c: char)
    requires c != '\n'
    requires forall i :: 0 <= i < |ls| ==> c !in ls[i]
    ensures c !in JoinLines(ls)
    decreases |ls|
  {
    if ls != [] {
      JoinLinesAvoid(ls[1..], c);
    }
  }

  /** The configuration text holding the triples in order. */
  function Render(es: seq<Entry>): CString
    requires forall i :: 0 <= i < |es| ==> Renderable(es[i])
  {
    EntryLinesAvoid(es, '\0');
    JoinLinesAvoid(EntryLines(es), '\0');
    JoinLines(EntryLines(es))
  }

  /** The value the last triple for (section, key) gives, if any. */
  function LastValue(es: seq<Entry>, section: string, key: string): Option<string>
    decreases |es|
  {
    if es == [] then None
    else
      var e := es[|es| - 1];
      if e.section == section && e.key == key then Some(e.value)
      else LastValue(es[..|es| - 1], section, key)
  }

  /** A renderable pair line stores its key and value verbatim. */
  lemma RenderedPairLine(ctx: Ctx, e: Entry)
    requires Renderable(e)
    ensures ProcessLine(ctx, e.key + "=" + e.value)
      == Success(ctx.(values := Assign(ctx.values, ctx.section, e.key, e.value)))
  {
    var key, value := e.key, e.value;
    assert [] + key + "=" + value == key + "=" + value;
    assert DropTrailing(key, Blank) == key by {
      DropTrailingOfSuffix(key, [], Blank);
      assert key + [] == key;
    }
    assert DropLeading(value, Blank) == value by {
      DropLeadingOfPrefix([], value, Blank);
      assert [] + value == value;
    }
    assert DropTrailing(value, LineSpace) == value by {
      DropTrailingOfSuffix(value, [], LineSpace);
      assert value + [] == value;
    }
    assert !AllIn(value, LineSpace);
    assert !AllIn(value, Blank);
    assert StoredValue(value) == value;
    PairLine(ctx, [], key, value);
  }

  /** The header line of a triple selects its section. */
  lemma RenderedHeaderLine(ctx: Ctx, e: Entry)
    requires Renderable(e)
    ensures ProcessLine(ctx, "[" + e.section + "]") == Success(ctx.(section := e.section))
  {
    HeaderSetsSection(ctx, [], e.section, []);
    assert [] + "[" + e.section + "]" + [] == "[" + e.section + "]";
  }

  /** The two lines of one more triple select its section and then store
      its pair there. */
  lemma ParseEntryLines(L: seq<string>, e: Entry)
    requires Renderable(e) && ParseLines(L).Success?
    ensures ParseLines(L + ["[" + e.section + "]", e.key + "=" + e.value]) ==
      Success(ParseLines(L).value.(section := e.section,
        values := Assign(ParseLines(L).value.values, e.section, e.key, e.value)))
  {
    var h := "[" + e.section + "]";
    var lines := L + [h, e.key + "=" + e.value];
    assert lines[..|lines| - 1] == L + [h];
    assert (L + [h])[..|L|] == L;
    var c0 := ParseLines(L).value;
    RenderedHeaderLine(c0, e);
    assert ParseLines(L + [h]) == Success(c0.(section := e.section));
    RenderedPairLine(c0.(section := e.section), e);
  }

  /** The last value of a pair is that of the final triple if it names the
      pair, and otherwise the last value before it. */
  lemma LastValueOfLast(es: seq<Entry>)
    requires es != []
    ensures var e := es[|es| - 1];
      forall s, k :: LastValue(es, s, k) == (if s == e.section && k == e.key then Some(e.value) else LastValue(es[..|es| - 1], s, k))
  {
  }

  /** Parsing the rendered lines finds, for every (section, key), the last
      value given for it: later assignments overwrite earlier ones and leave
      every other entry alone. */
  lemma {:induction false} ParseEntries(es: seq<Entry>)
    requires forall i :: 0 <= i < |es| ==> Renderable(es[i])
    ensures ParseLines(EntryLines(es)).Success?
    ensures forall s, k :: Lookup(ParseLines(EntryLines(es)).value.values, s, k) == LastValue(es, s, k)
    decreases |es|
  {
    if es != [] {
      var init := es[..|es| - 1];
      var e := es[|es| - 1];
      ParseEntries(init);
      assert EntryLines(es) == EntryLines(init) + ["[" + e.section + "]", e.key + "=" + e.value];
      ParseEntryLines(EntryLines(init), e);
      LastValueOfLast(es);
    }
  }

  /** Round trip: render triples as `[section]` / `key=value` lines, parse,
      and every lookup answers the last value given for its pair, or null
      for a pair never given. */
  lemma ParseRoundTrip(es: seq<Entry>)
    requires forall i :: 0 <= i < |es| ==> Renderable(es[i])
    ensures Parse(Render(es)).Success?
    ensures forall s, k :: Lookup(Parse(Render(es)).value, s, k) == LastValue(es, s, k)
  {
    EntryLinesAvoid(es, '\n');
    SplitJoin(EntryLines(es));
    ParseEntries(es);
  }

  /** A pair before any header is stored under the default section "". */
  lemma PairBeforeHeaderInDefaultSection(key: string, value: string)
    requires Renderable(Entry("", key, value))
    ensures Parse(key + "=" + value + "\n") == Success(map["" := map[key := value]])
  {
    var p := key + "=" + value;
    var text := key + "=" + value + "\n";
    assert JoinLines([p]) == p + "\n" + JoinLines([]);
    assert JoinLines([p]) == text;
    SplitJoin([p]);
    assert SplitLines(text) == [p];
    assert [p][..0] == [];
    assert ParseLines([p]) == ProcessLine(Initial, p);
    RenderedPairLine(Initial, Entry("", key, value));
    assert Assign(map[], "", key, value) == map["" := map[key := value]];
  }
}

=== FILE: session_config.dfy ===
/** `getShaderMode` and `SessionConfigurationParse` of src/main.c: the
    session's configuration read from the file's text with `cfgGet`. The
    file read itself is left to the caller: its content arrives as an
    `Option`, None when the file could not be opened or read. */
module SessionConfig {
  import opened Wrappers
  import opened Text
  import opened CfgScan

  datatype ShaderMode = ModeNone | ModeShader

  /** `struct SessionConfiguration`. */
  datatype SessionConfiguration = SessionConfiguration(mode: ShaderMode, vertexShader: string, fragmentShader: string)

  /** Why SessionConfigurationParse returned 1. */
  datatype ConfigError = ConfigNotFound | KeyMissing(section: string, key: string)

  /** `getShaderMode` as written: SHADER when `strcmp` reports a
      difference from "shader", NONE when it reports none. */
  function GetShaderMode(s: string): (r: ShaderMode)
    ensures '\0' !in s ==> (r == ModeNone <==> s == Shader)
  {
    if StrCmp(s, Shader) != 0 then ModeShader else ModeNone
  }

  /** The section and key names the configuration file is read with. */
  const General: CString := "general"
  const ShaderModeKey: CString := "shadermode"
  const Shader: CString := "shader"
  const VertexShaderKey: CString := "vertexshader"
  const FragmentShaderKey: CString := "fragmentShader"

  /** The buffer size every call passes: MAX_LINE_LENGTH. */
  const BufSize: nat := MaxLineLength

  /** One `cfgGet` on the file's text with a section. */
  function Get(text: CString, section: CString, key: CString): Option<string> {
    CfgGet(Some(text), Some(section), Some(key), Some(BufSize))
  }

  /** The two shader paths SHADER mode requires, read in the order the code
      reads them. */
  function ReadShaderPaths(text: CString): (r: Result<(string, string), ConfigError>)
    ensures r.Success? <==>
      Get(text, Shader, VertexShaderKey).Some? && Get(text, Shader, FragmentShaderKey).Some?
    ensures r.Success? ==>
      && r.value.0 == Get(text, Shader, VertexShaderKey).value
      && r.value.1 == Get(text, Shader, FragmentShaderKey).value
  {
    match Get(text, Shader, VertexShaderKey)
    case None => Failure(KeyMissing(Shader, VertexShaderKey))
    case Some(vs) =>
      match Get(text, Shader, FragmentShaderKey)
      case None => Failure(KeyMissing(Shader, FragmentShaderKey))
      case Some(fs) => Success((vs, fs))
  }

  /** `SessionConfigurationParse`. `prev` is the structure before the call:
      the shader paths are written only in SHADER mode and otherwise keep
      what `prev` held. */
  function ParseSessionConfiguration(prev: SessionConfiguration, file: Option<CString>)
    : (r: Result<SessionConfiguration, ConfigError>)
    ensures file.None? ==> r == Failure(ConfigNotFound)
    ensures r.Success? && r.value.mode == ModeNone ==>
      r.value.vertexShader == prev.vertexShader && r.value.fragmentShader == prev.fragmentShader
    ensures r.Success? && r.value.mode == ModeShader ==>
      0 < |r.value.vertexShader| < BufSize && 0 < |r.value.fragmentShader| < BufSize
  {
    match file
    case None => Failure(ConfigNotFound)
    case Some(text) =>
      match Get(text, General, ShaderModeKey)
      case None => Failure(KeyMissing(General, ShaderModeKey))
      case Some(modeText) =>
        if GetShaderMode(modeText) == ModeNone then Success(prev.(mode := ModeNone))
        else
          match ReadShaderPaths(text)
          case Failure(e) => Failure(e)
          case Success(paths) => Success(SessionConfiguration(ModeShader, paths.0, paths.1))
  }

  /** SessionConfigurationParse succeeds exactly when the file was read,
      `general`/`shadermode` is present, and, in SHADER mode only, both
      `shader`/`vertexshader` and `shader`/`fragmentShader` are present. */
  lemma ParseSucceedsIffKeysPresent(prev: SessionConfiguration, text: CString)
    ensures ParseSessionConfiguration(prev, Some(text)).Success? <==>
      && Get(text, General, ShaderModeKey).Some?
      && (GetShaderMode(Get(text, General, ShaderModeKey).value) == ModeShader ==>
            ReadShaderPaths(text).Success?)
  {
    var mode := Get(text, General, ShaderModeKey);
    if mode.Some? && GetShaderMode(mode.value) == ModeShader {
      var paths := ReadShaderPaths(text);
    }
  }

  /** On success the mode is that of `shadermode`'s value, and in SHADER
      mode the paths are the values read from the `shader` section. */
  lemma ParsedFieldsAreTheValuesRead(prev: SessionConfiguration, text: CString)
    requires ParseSessionConfiguration(prev, Some(text)).Success?
    ensures var c := ParseSessionConfiguration(prev, Some(text)).value;
      && Get(text, General, ShaderModeKey).Some?
      && c.mode == GetShaderMode(Get(text, General, ShaderModeKey).value)
      && (c.mode == ModeShader ==>
            && c.vertexShader == Get(text, Shader, VertexShaderKey).value
            && c.fragmentShader == Get(text, Shader, FragmentShaderKey).value)
  {
    var m := Get(text, General, ShaderModeKey);
    assert m.Some?;
    if GetShaderMode(m.value) == ModeShader {
      var paths := ReadShaderPaths(text);
      assert paths.Success?;
      assert ParseSessionConfiguration(prev, Some(text)) == Success(SessionConfiguration(ModeShader, paths.value.0, paths.value.1));
    } else {
      assert ParseSessionConfiguration(prev, Some(text)) == Success(prev.(mode := ModeNone));
    }
  }

  // ---------------------------------------------------------------------
  // A configuration file written out and read back.

  /** A value the file format carries unchanged: a non-empty word with no
      white space, no `[` (which would end the section scan) and no NUL,
      short enough that its line stays under MaxLineLength even after the
      longest key prefix, the 15 characters of `fragmentShader=`. */
  predicate ConfigWord(w: string) {
    0 < |w| < 497 && forall j :: 0 <= j < |w| ==> !IsCSpace(w[j]) && w[j] != '[' && w[j] != '\0'
  }

  /** The configuration file holding `mode` and the two shader paths, one
      entry per line. */
  function ConfigText(mode: string, vs: string, fs: string): (r: CString)
    requires ConfigWord(mode) && ConfigWord(vs) && ConfigWord(fs)
    ensures |r| == 61 + |mode| + |vs| + |fs|
  {
    var t := GeneralHead + ModeEntry(mode) + ShaderHead + VertexEntry(vs) + FragmentEntry(fs);
    WordIsClean(mode);
    WordIsClean(vs);
    WordIsClean(fs);
    t
  }

  const GeneralHead: string := "[general]\n"
  const ShaderHead: string := "[shader]\n"
  const ModePrefix: string := "shadermode="
  const VertexPrefix: string := "vertexshader="
  const FragmentPrefix: string := "fragmentShader="

  function ModeEntry(mode: string): string { ModePrefix + mode + "\n" }
  function VertexEntry(vs: string): string { VertexPrefix + vs + "\n" }
  function FragmentEntry(fs: string): string { FragmentPrefix + fs + "\n" }

  /** A configuration word is a clean line body: it holds no LF, no `[` and
      no NUL. */
  lemma WordIsClean(w: string)
    requires ConfigWord(w)
    ensures '\n' !in w && '[' !in w && '\0' !in w
  {
    assert IsCSpace('\n');
  }

  /** The names the file is read with, as the header and key prefixes
      `cfgGet` formats from them. */
  lemma NamesAsWritten()
    ensures SectionHeader(General) + "\n" == GeneralHead
    ensures SectionHeader(Shader) + "\n" == ShaderHead
    ensures KeyPrefix(ShaderModeKey) == ModePrefix
    ensures KeyPrefix(VertexShaderKey) == VertexPrefix
    ensures KeyPrefix(FragmentShaderKey) == FragmentPrefix
  {
    assert "[" + General + "]" == "[general]";
    assert "[" + Shader + "]" == "[shader]";
    assert ShaderModeKey + "=" == ModePrefix;
    assert VertexShaderKey + "=" == VertexPrefix;
    assert FragmentShaderKey + "=" == FragmentPrefix;
  }

  /** The characters of `body` sit in `pre + body + rest` right after `pre`. */
  lemma PieceAt(text: string, pre: string, body: string, rest: string)
    requires text == pre + body + rest
    ensures forall j :: 0 <= j < |body| ==> text[|pre| + j] == body[j]
  {
  }

  /** A header on a line of its own occurs right after `pre`, with its LF
      after it. */
  lemma HeaderLine(text: string, pre: string, h: string, rest: string)
    requires text == pre + (h + "\n") + rest
    ensures Occurs(text, |pre|, h) && text[|pre| + |h|] == '\n'
  {
    Regroup(pre, h + "\n", rest);
    Regroup(pre + h, "\n", rest);
    MiddleSlice(text, pre, h, "\n" + rest);
  }

  /** A section header whose first occurrence is at `k`, on a line of its
      own, starts the scan at the line after it. */
  lemma SectionFound(text: CString, sec: CString, k: nat)
    requires Occurs(text, k, SectionHeader(sec)) && '\n' !in SectionHeader(sec)
    requires forall i :: 0 <= i < k ==> !Occurs(text, i, SectionHeader(sec))
    requires k + |SectionHeader(sec)| < |text| && text[k + |SectionHeader(sec)|] == '\n'
    ensures SearchStart(text, Some(sec)) == Some(k + |SectionHeader(sec)| + 1)
  {
    var h := SectionHeader(sec);
    IndexOfSubLands(text, 0, h, k);
    assert forall j :: k <= j < k + |h| ==> text[j] == h[j - k];
    IndexOfLands(text, k, '\n', k + |h|);
    SearchStartAt(text, sec, k, k + |h|);
  }

  /** A body free of `[` followed by `[` or the end of the text is exactly
      the region the scan searches. */
  lemma RegionEnds(text: string, pre: string, body: string, rest: string)
    requires text == pre + body + rest
    requires '[' !in body && (rest == [] || rest[0] == '[')
    ensures SearchEnd(text, |pre|) == |pre| + |body|
  {
    PieceAt(text, pre, body, rest);
    var e := |pre| + |body|;
    assert forall j :: |pre| <= j < e ==> text[j] != '[' by {
      forall j | |pre| <= j < e
        ensures text[j] != '['
      {
        assert text[j] == body[j - |pre|] && body[j - |pre|] in body;
      }
    }
    if e < |text| {
      assert text[e] == rest[0];
    }
  }

  /** No `[` in `pre` past its first character, and a second character
      other than the header's: the header does not occur in `pre`. */
  lemma HeaderNotBefore(text: string, pre: string, h: string, rest: string)
    requires text == pre + rest && 1 < |h| && h[0] == '['
    requires 1 < |pre| && pre[1] != h[1]
    requires forall j :: 1 <= j < |pre| ==> pre[j] != '['
    ensures forall i :: 0 <= i < |pre| ==> !Occurs(text, i, h)
  {
    forall i | 0 <= i < |pre|
      ensures !Occurs(text, i, h)
    {
      if i + |h| <= |text| {
        assert text[i..i + |h|][0] == text[i] && text[i..i + |h|][1] == text[i + 1];
        assert text[i] == pre[i] && text[1] == pre[1];
      }
    }
  }

  /** What follows the `general` section. */
  function ShaderPart(vs: string, fs: string): string {
    ShaderHead + VertexEntry(vs) + FragmentEntry(fs)
  }

  /** Everything before the first line of the `shader` section. */
  function ShaderStart(mode: string): string {
    GeneralHead + ModeEntry(mode) + ShaderHead
  }

  /** The file is the `general` section followed by the `shader` one. */
  lemma GeneralLayout(t: CString, mode: string, vs: string, fs: string)
    requires ConfigWord(mode) && ConfigWord(vs) && ConfigWord(fs) && t == ConfigText(mode, vs, fs)
    ensures t == GeneralHead + ModeEntry(mode) + ShaderPart(vs, fs)
  {
    var a := GeneralHead + ModeEntry(mode);
    Regroup(a, ShaderHead + VertexEntry(vs), FragmentEntry(fs));
    Regroup(a, ShaderHead, VertexEntry(vs));
  }

  /** The file is the mode line, what precedes it and what follows it. */
  lemma ModeLineLayout(t: CString, mode: string, vs: string, fs: string)
    requires ConfigWord(mode) && ConfigWord(vs) && ConfigWord(fs) && t == ConfigText(mode, vs, fs)
    ensures t == GeneralHead + (ModePrefix + mode) + ("\n" + ShaderPart(vs, fs))
  {
    var a := GeneralHead + (ModePrefix + mode);
    Regroup(GeneralHead, ModePrefix + mode, "\n");
    Regroup(a + "\n" + ShaderHead, VertexEntry(vs), FragmentEntry(fs));
    Regroup(a + "\n", ShaderHead, VertexEntry(vs) + FragmentEntry(fs));
    Regroup(ShaderHead, VertexEntry(vs), FragmentEntry(fs));
    Regroup(a, "\n", ShaderPart(vs, fs));
  }

  /** The file is the `shader` header's line and what precedes it, then the
      vertex line, then the fragment line. */
  lemma ShaderLayout(t: CString, mode: string, vs: string, fs: string)
    requires ConfigWord(mode) && ConfigWord(vs) && ConfigWord(fs) && t == ConfigText(mode, vs, fs)
    ensures t == ShaderStart(mode) + (VertexPrefix + vs) + ("\n" + (FragmentPrefix + fs) + "\n")
  {
    var p := ShaderStart(mode);
    Regroup(p, VertexEntry(vs), FragmentEntry(fs));
    Regroup(p + (VertexPrefix + vs), "\n", FragmentEntry(fs));
    Regroup("\n", FragmentPrefix + fs, "\n");
    Regroup(p + (VertexPrefix + vs), "\n" + (FragmentPrefix + fs), "\n");
  }

  /** The `general` section, holding the mode line, opens the file and
      ends where the next `[` starts. */
  lemma GeneralRegion(t: CString, mode: string, rest: string)
    requires ConfigWord(mode) && t == GeneralHead + ModeEntry(mode) + rest
    requires rest != [] && rest[0] == '['
    ensures SearchStart(t, Some(General)) == Some(|GeneralHead|)
    ensures SearchEnd(t, |GeneralHead|) == |GeneralHead| + |ModeEntry(mode)|
  {
    NamesAsWritten();
    WordIsClean(mode);
    Regroup(GeneralHead, ModeEntry(mode), rest);
    assert t == [] + (SectionHeader(General) + "\n") + (ModeEntry(mode) + rest);
    HeaderLine(t, [], SectionHeader(General), ModeEntry(mode) + rest);
    SectionFound(t, General, 0);
    RegionEnds(t, GeneralHead, ModeEntry(mode), rest);
  }

  /** The scan from the top of the `general` section, ending at `end`
      just past the mode line, stops at the mode line. */
  lemma ModeLineFound(t: CString, mode: string, rest: string, end: nat)
    requires ConfigWord(mode) && t == GeneralHead + (ModePrefix + mode) + ("\n" + rest)
    requires end == |GeneralHead| + |ModePrefix + mode| + 1
    ensures FirstMatch(t, |GeneralHead|, end, ModePrefix) == Some(|GeneralHead|)
    ensures LineAt(t, |GeneralHead|) == ModePrefix + mode
  {
    WordIsClean(mode);
    WordLineAccepted(ModePrefix, mode);
    ScanStopsAtLine(t, GeneralHead, ModePrefix + mode, "\n" + rest, end, ModePrefix);
  }

  /** The `general` section's mode line as the scan sees it. */
  lemma ModeLineInFile(t: CString, mode: string, vs: string, fs: string)
    requires ConfigWord(mode) && ConfigWord(vs) && ConfigWord(fs) && t == ConfigText(mode, vs, fs)
    ensures SearchStart(t, Some(General)) == Some(|GeneralHead|)
    ensures FirstMatch(t, |GeneralHead|, SearchEnd(t, |GeneralHead|), ModePrefix) == Some(|GeneralHead|)
    ensures LineAt(t, |GeneralHead|) == ModePrefix + mode
  {
    var rest := ShaderPart(vs, fs);
    GeneralLayout(t, mode, vs, fs);
    GeneralRegion(t, mode, rest);
    var end := |GeneralHead| + |ModeEntry(mode)|;
    assert end == |GeneralHead| + |ModePrefix + mode| + 1;
    ModeLineLayout(t, mode, vs, fs);
    ModeLineFound(t, mode, rest, end);
  }

  /** The mode line as `Get` scans for it. */
  lemma ModeLineOfFile(t: CString, mode: string, vs: string, fs: string)
    requires ConfigWord(mode) && ConfigWord(vs) && ConfigWord(fs) && t == ConfigText(mode, vs, fs)
    ensures SearchStart(t, Some(General)) == Some(|GeneralHead|)
    ensures FirstMatch(t, |GeneralHead|, SearchEnd(t, |GeneralHead|), KeyPrefix(ShaderModeKey)) == Some(|GeneralHead|)
    ensures LineAt(t, |GeneralHead|) == KeyPrefix(ShaderModeKey) + mode
  {
    ModeLineInFile(t, mode, vs, fs);
    NamesAsWritten();
  }

  /** A value on the line the scan of its section stops at is what `Get`
      reads. */
  lemma GetReadsWord(t: CString, sec: CString, key: CString, start: nat, q: nat, w: string)
    requires SearchStart(t, Some(sec)) == Some(start)
    requires FirstMatch(t, start, SearchEnd(t, start), KeyPrefix(key)) == Some(q)
    requires q <= |t| && LineAt(t, q) == KeyPrefix(key) + w
    requires ConfigWord(w) && |key| <= 14
    ensures Get(t, sec, key) == Some(w)
  {
    assert KeyPrefix(key) == key + "=";
    CfgGetAnswersAt(t, Some(sec), key, BufSize, start, q);
    AnswerOfWordLine(t, q, KeyPrefix(key), w, BufSize);
  }

  /** `shadermode` reads back as `mode`. */
  lemma ModeReadBack(mode: string, vs: string, fs: string)
    requires ConfigWord(mode) && ConfigWord(vs) && ConfigWord(fs)
    ensures Get(ConfigText(mode, vs, fs), General, ShaderModeKey) == Some(mode)
  {
    var t := ConfigText(mode, vs, fs);
    ModeLineOfFile(t, mode, vs, fs);
    GetReadsWord(t, General, ShaderModeKey, |GeneralHead|, |GeneralHead|, mode);
  }

  /** Past its first character the `general` section holds no `[`. */
  lemma GeneralHasOneBracket(mode: string)
    requires ConfigWord(mode)
    ensures var pre := GeneralHead + ModeEntry(mode);
      forall j :: 1 <= j < |pre| ==> pre[j] != '['
  {
    WordIsClean(mode);
    var pre := GeneralHead + ModeEntry(mode);
    assert '[' !in GeneralHead[1..];
    forall j | 1 <= j < |pre|
      ensures pre[j] != '['
    {
      if j < |GeneralHead| {
        assert pre[j] == GeneralHead[1..][j - 1];
      } else {
        assert pre[j] == ModeEntry(mode)[j - |GeneralHead|];
      }
    }
  }

  /** The `shader` section follows the `general` one and runs to the end
      of the file. */
  lemma ShaderRegion(t: CString, mode: string, body: string)
    requires ConfigWord(mode) && t == ShaderStart(mode) + body && '[' !in body
    ensures SearchStart(t, Some(Shader)) == Some(|ShaderStart(mode)|)
    ensures SearchEnd(t, |ShaderStart(mode)|) == |t|
  {
    var pre := GeneralHead + ModeEntry(mode);
    NamesAsWritten();
    Regroup(pre, ShaderHead, body);
    assert t == pre + (SectionHeader(Shader) + "\n") + body;
    HeaderLine(t, pre, SectionHeader(Shader), body);
    GeneralHasOneBracket(mode);
    HeaderNotBefore(t, pre, SectionHeader(Shader), (SectionHeader(Shader) + "\n") + body);
    SectionFound(t, Shader, |pre|);
    assert t == ShaderStart(mode) + body + [];
    RegionEnds(t, ShaderStart(mode), body, []);
  }

  /** The scan of the `shader` section for `vertexshader` stops at its
      first line. */
  lemma VertexLineFound(t: CString, p: string, vs: string, rest: string)
    requires ConfigWord(vs) && t == p + (VertexPrefix + vs) + ("\n" + rest)
    ensures FirstMatch(t, |p|, |t|, VertexPrefix) == Some(|p|)
    ensures LineAt(t, |p|) == VertexPrefix + vs
  {
    WordIsClean(vs);
    WordLineAccepted(VertexPrefix, vs);
    ScanStopsAtLine(t, p, VertexPrefix + vs, "\n" + rest, |t|, VertexPrefix);
  }

  /** The line after `line` in `p + line + "\n" + next + "\n"`. */
  lemma NextLine(t: string, p: string, line: string, next: string)
    requires t == p + line + ("\n" + next + "\n")
    ensures t == (p + line + "\n") + next + "\n"
  {
    Regroup(p + line, "\n", next);
    Regroup(p + line, "\n" + next, "\n");
  }

  /** The scan of the `shader` section for `fragmentShader` passes the
      vertex line and stops at the second line. */
  lemma FragmentLineFound(t: CString, p: string, vs: string, fs: string)
    requires ConfigWord(vs) && ConfigWord(fs)
    requires t == p + (VertexPrefix + vs) + ("\n" + (FragmentPrefix + fs) + "\n")
    ensures FirstMatch(t, |p|, |t|, FragmentPrefix) == Some(|p| + |VertexPrefix + vs| + 1)
    ensures LineAt(t, |p| + |VertexPrefix + vs| + 1) == FragmentPrefix + fs
  {
    WordIsClean(vs);
    WordIsClean(fs);
    var line := VertexPrefix + vs;
    assert !(FragmentPrefix <= line) by {
      assert line[0] != FragmentPrefix[0];
    }
    ScanPassesLine(t, p, line, "\n" + (FragmentPrefix + fs) + "\n", |t|, FragmentPrefix);
    NextLine(t, p, line, FragmentPrefix + fs);
    WordLineAccepted(FragmentPrefix, fs);
    ScanStopsAtLine(t, p + line + "\n", FragmentPrefix + fs, "\n", |t|, FragmentPrefix);
  }

  /** Where the `shader` section of a written file starts and ends. */
  lemma ShaderRegionOfFile(t: CString, mode: string, vs: string, fs: string)
    requires ConfigWord(mode) && ConfigWord(vs) && ConfigWord(fs) && t == ConfigText(mode, vs, fs)
    ensures SearchStart(t, Some(Shader)) == Some(|ShaderStart(mode)|)
    ensures SearchEnd(t, |ShaderStart(mode)|) == |t|
  {
    var p := ShaderStart(mode);
    var rest := "\n" + (FragmentPrefix + fs) + "\n";
    ShaderLayout(t, mode, vs, fs);
    WordIsClean(vs);
    WordIsClean(fs);
    Regroup(p, VertexPrefix + vs, rest);
    ShaderRegion(t, mode, (VertexPrefix + vs) + rest);
  }

  /** The `shader` section's lines as the scans see them. */
  lemma ShaderLinesFound(t: CString, mode: string, vs: string, fs: string)
    requires ConfigWord(mode) && ConfigWord(vs) && ConfigWord(fs) && t == ConfigText(mode, vs, fs)
    ensures FirstMatch(t, |ShaderStart(mode)|, |t|, VertexPrefix) == Some(|ShaderStart(mode)|)
    ensures LineAt(t, |ShaderStart(mode)|) == VertexPrefix + vs
    ensures FirstMatch(t, |ShaderStart(mode)|, |t|, FragmentPrefix) == Some(|ShaderStart(mode)| + |VertexPrefix + vs| + 1)
    ensures LineAt(t, |ShaderStart(mode)| + |VertexPrefix + vs| + 1) == FragmentPrefix + fs
  {
    var p := ShaderStart(mode);
    ShaderLayout(t, mode, vs, fs);
    Regroup("\n", FragmentPrefix + fs, "\n");
    VertexLineFound(t, p, vs, (FragmentPrefix + fs) + "\n");
    FragmentLineFound(t, p, vs, fs);
  }

  /** The vertex line as `Get` scans for it. */
  lemma VertexLineOfFile(t: CString, mode: string, vs: string, fs: string)
    requires ConfigWord(mode) && ConfigWord(vs) && ConfigWord(fs) && t == ConfigText(mode, vs, fs)
    ensures SearchStart(t, Some(Shader)) == Some(|ShaderStart(mode)|)
    ensures FirstMatch(t, |ShaderStart(mode)|, SearchEnd(t, |ShaderStart(mode)|), KeyPrefix(VertexShaderKey)) == Some(|ShaderStart(mode)|)
    ensures LineAt(t, |ShaderStart(mode)|) == KeyPrefix(VertexShaderKey) + vs
  {
    ShaderRegionOfFile(t, mode, vs, fs);
    ShaderLinesFound(t, mode, vs, fs);
    NamesAsWritten();
  }

  /** The fragment line, at `q`, as `Get` scans for it. */
  lemma FragmentLineOfFile(t: CString, mode: string, vs: string, fs: string, q: nat)
    requires ConfigWord(mode) && ConfigWord(vs) && ConfigWord(fs) && t == ConfigText(mode, vs, fs)
    requires q == |ShaderStart(mode)| + |VertexPrefix + vs| + 1
    ensures SearchStart(t, Some(Shader)) == Some(|ShaderStart(mode)|)
    ensures FirstMatch(t, |ShaderStart(mode)|, SearchEnd(t, |ShaderStart(mode)|), KeyPrefix(FragmentShaderKey)) == Some(q)
    ensures q <= |t| && LineAt(t, q) == KeyPrefix(FragmentShaderKey) + fs
  {
    ShaderRegionOfFile(t, mode, vs, fs);
    ShaderLinesFound(t, mode, vs, fs);
    NamesAsWritten();
  }

  /** `vertexshader` reads back as `vs`. */
  lemma VertexReadBack(mode: string, vs: string, fs: string)
    requires ConfigWord(mode) && ConfigWord(vs) && ConfigWord(fs)
    ensures Get(ConfigText(mode, vs, fs), Shader, VertexShaderKey) == Some(vs)
  {
    var t := ConfigText(mode, vs, fs);
    VertexLineOfFile(t, mode, vs, fs);
    GetReadsWord(t, Shader, VertexShaderKey, |ShaderStart(mode)|, |ShaderStart(mode)|, vs);
  }

  /** `fragmentShader` reads back as `fs`. */
  lemma FragmentReadBack(mode: string, vs: string, fs: string)
    requires ConfigWord(mode) && ConfigWord(vs) && ConfigWord(fs)
    ensures Get(ConfigText(mode, vs, fs), Shader, FragmentShaderKey) == Some(fs)
  {
    var t := ConfigText(mode, vs, fs);
    var q := |ShaderStart(mode)| + |VertexPrefix + vs| + 1;
    FragmentLineOfFile(t, mode, vs, fs, q);
    GetReadsWord(t, Shader, FragmentShaderKey, |ShaderStart(mode)|, q, fs);
  }

  /** A file written with a mode and two paths parses back: any mode other
      than "shader" selects SHADER with the two paths, and "shader" itself
      selects NONE, keeping the previous paths. */
  lemma ConfigRoundTrip(prev: SessionConfiguration, mode: string, vs: string, fs: string)
    requires ConfigWord(mode) && ConfigWord(vs) && ConfigWord(fs)
    ensures ParseSessionConfiguration(prev, Some(ConfigText(mode, vs, fs))) ==
      if mode == Shader then Success(prev.(mode := ModeNone))
      else Success(SessionConfiguration(ModeShader, vs, fs))
  {
    ModeReadBack(mode, vs, fs);
    VertexReadBack(mode, vs, fs);
    FragmentReadBack(mode, vs, fs);
  }
}

=== FILE: text.dfy ===
/** Character-sequence searches shared by both configuration readers: the
    C library's `strchr`, `strstr`, `sscanf("%s")` and `std::string`'s
    `find`, `find_first_not_of` and `find_last_not_of`, each with a contract
    that pins down which index it answers. */
module Text {
  import opened Wrappers

  /** What a `const char*` denotes: the characters before its terminating
      NUL, so never a NUL itself. */
  type CString = s: string | '\0' !in s

  /** Every character of `s` belongs to `chars`. */
  predicate AllIn(s: string, chars: set<char>) {
    forall j :: 0 <= j < |s| ==> s[j] in chars
  }

  /** The first index at or after `from` holding `c` (`strchr`,
      `std::string::find`), or None. */
  function IndexOf(s: string, from: nat, c: char): (r: Option<nat>)
    requires from <= |s|
    decreases |s| - from
    ensures r.Some? ==> from <= r.value < |s| && s[r.value] == c
    ensures r.Some? ==> forall j :: from <= j < r.value ==> s[j] != c
    ensures r.None? ==> forall j :: from <= j < |s| ==> s[j] != c
  {
    if from == |s| then None
    else if s[from] == c then Some(from)
    else IndexOf(s, from + 1, c)
  }

  /** `pat` occurs in `s` starting at index `i`. */
  predicate Occurs(s: string, i: nat, pat: string) {
    i + |pat| <= |s| && s[i..i + |pat|] == pat
  }

  /** The first index at or after `from` where `pat` occurs (`strstr`), or None. */
  function IndexOfSub(s: string, from: nat, pat: string): (r: Option<nat>)
    requires from <= |s|
    decreases |s| - from
    ensures r.Some? ==> from <= r.value && Occurs(s, r.value, pat)
    ensures r.Some? ==> forall i :: from <= i < r.value ==> !Occurs(s, i, pat)
    ensures r.None? ==> forall i :: from <= i <= |s| ==> !Occurs(s, i, pat)
  {
    if Occurs(s, from, pat) then Some(from)
    else if from == |s| then None
    else IndexOfSub(s, from + 1, pat)
  }

  /** The first index at or after `from` whose character is not in `chars`
      (`find_first_not_of`), or None where the library answers `npos`. */
  function FirstNotIn(s: string, from: nat, chars: set<char>): (r: Option<nat>)
    requires from <= |s|
    decreases |s| - from
    ensures r.Some? ==> from <= r.value < |s| && s[r.value] !in chars
    ensures r.Some? ==> forall j :: from <= j < r.value ==> s[j] in chars
    ensures r.None? ==> forall j :: from <= j < |s| ==> s[j] in chars
  {
    if from == |s| then None
    else if s[from] !in chars then Some(from)
    else FirstNotIn(s, from + 1, chars)
  }

  /** The last index whose character is not in `chars` (`find_last_not_of`),
      or None where the library answers `npos`. */
  function LastNotIn(s: string, chars: set<char>): (r: Option<nat>)
    decreases |s|
    ensures r.Some? ==> r.value < |s| && s[r.value] !in chars
    ensures r.Some? ==> forall j :: r.value < j < |s| ==> s[j] in chars
    ensures r.None? ==> AllIn(s, chars)
  {
    if |s| == 0 then None
    else if s[|s| - 1] !in chars then Some(|s| - 1)
    else LastNotIn(s[..|s| - 1], chars)
  }

  /** `s` without its leading characters from `chars`. */
  function DropLeading(s: string, chars: set<char>): (r: string)
    decreases |s|
  {
    if |s| > 0 && s[0] in chars then DropLeading(s[1..], chars) else s
  }

  /** `s` without its trailing characters from `chars`. */
  function DropTrailing(s: string, chars: set<char>): (r: string)
    decreases |s|
  {
    if |s| > 0 && s[|s| - 1] in chars then DropTrailing(s[..|s| - 1], chars) else s
  }

  /** C's `strcmp`: the difference of the first pair of characters that
      differ, where the end of a string reads as NUL and a NUL ends the
      comparison. Zero exactly when two NUL-free strings are equal. */
  function StrCmp(a: string, b: string): (r: int)
    ensures '\0' !in a && '\0' !in b ==> (r == 0 <==> a == b)
    decreases |a|
  {
    var x := if a == [] then 0 else a[0] as int;
    var y := if b == [] then 0 else b[0] as int;
    if x != y || x == 0 then x - y else StrCmp(a[1..], b[1..])
  }

  /** White space as the C locale's `isspace` classifies it, which is what
      `sscanf`'s `%s` conversion skips and stops at. */
  predicate IsCSpace(c: char) {
    c == ' ' || c == '\t' || c == '\n' || c == '\U{B}' || c == '\U{C}' || c == '\r'
  }

  /** `s` is white space throughout. */
  predicate AllCSpace(s: string) {
    forall j :: 0 <= j < |s| ==> IsCSpace(s[j])
  }

  /** The first index at or after `from` that is not white space, or |s|. */
  function SkipSpace(s: string, from: nat): (r: nat)
    requires from <= |s|
    decreases |s| - from
    ensures from <= r <= |s|
    ensures forall j :: from <= j < r ==> IsCSpace(s[j])
    ensures r < |s| ==> !IsCSpace(s[r])
  {
    if from == |s| || !IsCSpace(s[from]) then from else SkipSpace(s, from + 1)
  }

  /** The first index at or after `from` that is white space, or |s|. */
  function SkipWord(s: string, from: nat): (r: nat)
    requires from <= |s|
    decreases |s| - from
    ensures from <= r <= |s|
    ensures forall j :: from <= j < r ==> !IsCSpace(s[j])
    ensures r < |s| ==> IsCSpace(s[r])
  {
    if from == |s| || IsCSpace(s[from]) then from else SkipWord(s, from + 1)
  }

  /** The string `sscanf(s, "%s", buf)` stores: the first maximal run of
      non-white-space characters; empty when the conversion fails because
      `s` holds white space only. */
  function Token(s: string): (r: string)
    ensures exists a :: WordAt(s, a, r)
    ensures r == [] <==> AllCSpace(s)
  {
    var a := SkipSpace(s, 0);
    var r := s[a..SkipWord(s, a)];
    assert WordAt(s, a, r);
    assert a < |s| ==> !IsCSpace(s[a]) && r != [];
    r
  }

  /** Concatenation regrouped: `a + (b + c)` is `a + b + c`. */
  lemma Regroup(a: string, b: string, c: string)
    ensures a + (b + c) == a + b + c
  {
  }

  /** `s` cut to at most `n` characters, as a NUL written at index `n` does. */
  function Truncate(s: string, n: nat): (r: string)
    ensures |r| <= n && r <= s
    ensures |s| <= n ==> r == s
    ensures |s| > n ==> |r| == n
  {
    if |s| <= n then s else s[..n]
  }

  // ---------------------------------------------------------------------
  // Characterisations of the searches above.

  /** `t` is a white-space-free run of `s` starting at `a`, preceded only by
      white space and followed by white space or the end of `s`. */
  predicate WordAt(s: string, a: nat, t: string) {
    && a + |t| <= |s| && s[a..a + |t|] == t
    && (forall j :: 0 <= j < |t| ==> !IsCSpace(t[j]))
    && (forall j :: 0 <= j < a ==> IsCSpace(s[j]))
    && (a + |t| < |s| ==> IsCSpace(s[a + |t|]))
  }

  /** A word after white space and before white space (or the end) is what
      `%s` reads. */
  lemma TokenOfPaddedWord(ws: string, w: string, rest: string)
    requires forall j :: 0 <= j < |ws| ==> IsCSpace(ws[j])
    requires w != [] && forall j :: 0 <= j < |w| ==> !IsCSpace(w[j])
    requires rest == [] || IsCSpace(rest[0])
    ensures Token(ws + w + rest) == w
  {
    var s := ws + w + rest;
    SkipSpaceLands(s, 0, |ws|);
    SkipWordLands(s, |ws|, |ws| + |w|);
    assert s[|ws|..|ws| + |w|] == w;
  }

  /** SkipSpace stops exactly at the first non-white-space index. */
  lemma SkipSpaceLands(s: string, from: nat, k: nat)
    requires from <= k <= |s|
    requires forall j :: from <= j < k ==> IsCSpace(s[j])
    requires k < |s| && !IsCSpace(s[k])
    ensures SkipSpace(s, from) == k
  {
  }

  /** SkipWord stops exactly at the first white-space index (or the end). */
  lemma SkipWordLands(s: string, from: nat, k: nat)
    requires from <= k <= |s|
    requires forall j :: from <= j < k ==> !IsCSpace(s[j])
    requires k == |s| || IsCSpace(s[k])
    ensures SkipWord(s, from) == k
  {
  }

  /** IndexOf answers the first occurrence, so naming it pins the result. */
  lemma IndexOfLands(s: string, from: nat, c: char, k: nat)
    requires from <= k < |s| && s[k] == c
    requires forall j :: from <= j < k ==> s[j] != c
    ensures IndexOf(s, from, c) == Some(k)
  {
  }

  /** IndexOfSub answers the first occurrence, so naming it pins the result. */
  lemma IndexOfSubLands(s: string, from: nat, pat: string, k: nat)
    requires from <= k && Occurs(s, k, pat)
    requires forall i :: from <= i < k ==> !Occurs(s, i, pat)
    ensures IndexOfSub(s, from, pat) == Some(k)
  {
  }

  /** DropLeading removes exactly the leading run of `chars`: what remains
      is a suffix that starts outside `chars`, and what was removed lies
      inside `chars`. */
  lemma {:induction false} DropLeadingIsSuffix(s: string, chars: set<char>)
    ensures var r := DropLeading(s, chars);
      && |r| <= |s| && r == s[|s| - |r|..]
      && AllIn(s[..|s| - |r|], chars)
      && (r != [] ==> r[0] !in chars)
    decreases |s|
  {
    if |s| > 0 && s[0] in chars {
      DropLeadingIsSuffix(s[1..], chars);
      var r := DropLeading(s, chars);
      assert r == DropLeading(s[1..], chars);
      assert s[1..][|s| - 1 - |r|..] == s[|s| - |r|..];
      var dropped := s[..|s| - |r|];
      assert dropped == [s[0]] + s[1..][..|s| - 1 - |r|];
    }
  }

  /** A leading run of `chars` followed by a character outside them is
      exactly what DropLeading removes. */
  lemma {:induction false} DropLeadingOfPrefix(ws: string, s: string, chars: set<char>)
    requires AllIn(ws, chars)
    requires s == [] || s[0] !in chars
    ensures DropLeading(ws + s, chars) == s
    decreases |ws|
  {
    if ws == [] {
      assert ws + s == s;
    } else {
      assert (ws + s)[1..] == ws[1..] + s;
      DropLeadingOfPrefix(ws[1..], s, chars);
    }
  }

  /** A trailing run of `chars` preceded by a character outside them is
      exactly what DropTrailing removes. */
  lemma {:induction false} DropTrailingOfSuffix(s: string, ws: string, chars: set<char>)
    requires AllIn(ws, chars)
    requires s == [] || s[|s| - 1] !in chars
    ensures DropTrailing(s + ws, chars) == s
    decreases |ws|
  {
    if ws == [] {
      assert s + ws == s;
    } else {
      assert (s + ws)[..|s + ws| - 1] == s + ws[..|ws| - 1];
      DropTrailingOfSuffix(s, ws[..|ws| - 1], chars);
    }
  }

  /** FirstNotIn answers the first index outside `chars`, so naming it pins the result. */
  lemma FirstNotInLands(s: string, from: nat, chars: set<char>, k: nat)
    requires from <= k < |s| && s[k] !in chars
    requires forall j :: from <= j < k ==> s[j] in chars
    ensures FirstNotIn(s, from, chars) == Some(k)
  {
  }

  /** DropLeading and `find_first_not_of` followed by `substr` agree. */
  lemma DropLeadingAgrees(s: string, chars: set<char>)
    ensures DropLeading(s, chars) == match FirstNotIn(s, 0, chars)
      case None => []
      case Some(a) => s[a..]
  {
    DropLeadingIsSuffix(s, chars);
    var r := DropLeading(s, chars);
    var k := |s| - |r|;
    assert forall j :: 0 <= j < k ==> s[..k][j] == s[j];
    if r != [] {
      FirstNotInLands(s, 0, chars, k);
    }
  }

  /** DropTrailing and `find_last_not_of` agree: the text up to the last
      character outside `chars`. */
  lemma DropTrailingAgrees(s: string, chars: set<char>)
    ensures DropTrailing(s, chars) == match LastNotIn(s, chars)
      case None => []
      case Some(b) => s[..b + 1]
  {
    match LastNotIn(s, chars)
    case None =>
      DropTrailingOfSuffix([], s, chars);
      assert [] + s == s;
    case Some(b) =>
      assert s == s[..b + 1] + s[b + 1..];
      DropTrailingOfSuffix(s[..b + 1], s[b + 1..], chars);
  }
}

=== FILE: uniforms.dfy ===
/** `shaderUniformsLoad` of src/main.c: the calls it makes to the graphics
    driver, as a trace. Uniform values are opaque payloads; what is modelled
    is which calls are made, with which locations, counts and arrays, and
    in which order. */
module Uniforms {
  import opened Wrappers

  newtype uint32 = x: int | 0 <= x < 0x1_0000_0000
  newtype int32 = x: int | -0x8000_0000 <= x < 0x8000_0000

  /** The locations are stored in `GLuint` fields. */
  type GLuint = uint32

  /** A location `glGetUniformLocation` reports as -1 (the uniform is not
      declared), as it reads once stored in a `GLuint`: the comparison
      `!= -1` converts -1 to the same unsigned value. */
  const AbsentLocation: GLuint := 0xFFFF_FFFF

  /** A `GLint` location stored in a `GLuint` field: wrapped modulo 2^32. */
  function StoredLocation(loc: int32): (r: GLuint)
    ensures loc >= 0 ==> r as int == loc as int
    ensures loc < 0 ==> r as int == loc as int + 0x1_0000_0000
  {
    (loc as int % 0x1_0000_0000) as GLuint
  }

  /** A `float`, carried along and never inspected. */
  datatype Float = Float(bits: bv32)

  /** `GL_TEXTURE_2D`. */
  const Texture2D: nat := 0x0DE1

  /** The number of user texture units, the length of the key and joystick
      arrays, and the length of the sample array. */
  const TextureUnits: nat := 32
  const KeyCount: nat := 32
  const SampleCount: nat := 128

  /** One uniform write: `glUniform1f`, `glUniform3fv` or `glUniform1iv`. */
  datatype Upload =
    | Uniform1f(location: GLuint, value: Float)
    | Uniform3fv(location: GLuint, count: nat, values: seq<Float>)
    | Uniform1iv(location: GLuint, count: nat, ints: seq<int32>)

  /** One driver call. `ActiveTexture(unit)` is `glActiveTexture(GL_TEXTURE0
      + unit)`; `BindTexture(target, texture)` is `glBindTexture`. */
  datatype Call =
    | Write(upload: Upload)
    | ActiveTexture(unit: nat)
    | BindTexture(target: nat, texture: GLuint)
    | UseProgram(program: GLuint)

  /** The location fields of `struct ShaderUniforms`. */
  datatype Locations = Locations(
    quality: GLuint, cameraPosition: GLuint, cameraVelocity: GLuint, time: GLuint,
    x: GLuint, y: GLuint, width: GLuint, height: GLuint, zoom: GLuint, scroll: GLuint,
    battery: GLuint, volume: GLuint, keyStates: GLuint, joyStates: GLuint,
    sampleStates: GLuint, userTextures: GLuint, maxVolume: GLuint)

  /** `struct ShaderUniforms`: the per-frame values, the texture ids and the
      locations. `userTextures` is never read by the upload. */
  datatype ShaderUniforms = ShaderUniforms(
    quality: Float, cameraPosition: seq<Float>, cameraVelocity: seq<Float>, time: Float,
    x: Float, y: Float, width: Float, height: Float, zoom: Float, scroll: Float,
    battery: Float, volume: Float,
    keyStates: seq<int32>, joyStates: seq<int32>, sampleStates: seq<int32>, userTextures: seq<int32>,
    maxVolume: Float,
    userTexturesId: seq<GLuint>,
    loc: Locations)

  /** The arrays have the lengths the structure declares. */
  predicate WellSized(u: ShaderUniforms) {
    && |u.cameraPosition| == 3 && |u.cameraVelocity| == 3
    && |u.keyStates| == KeyCount && |u.joyStates| == KeyCount
    && |u.sampleStates| == SampleCount && |u.userTextures| == TextureUnits
    && |u.userTexturesId| == TextureUnits
  }

  /** The names the locations are looked up under, in the order of the
      uploads. */
  const UniformNames: seq<string> := [
    "uQuality", "uCameraPosition", "uCameraVelocity", "uTime", "uX", "uY",
    "uWidth", "uHeight", "uZoom", "uScroll", "uBattery", "uVolume", "uMaxVolume",
    "uKeyStates", "uJoyStates", "uSampleStates", "uUserTextures"]

  /** The sampler array's contents: unit `i` at index `i`. */
  function UnitIndices(): (r: seq<int32>)
    ensures |r| == TextureUnits && forall i :: 0 <= i < |r| ==> r[i] as int == i
  {
    seq(TextureUnits, i requires 0 <= i < TextureUnits => i as int32)
  }

  /** The location field `glGetUniformLocation` fills for `name`, as the
      location set-up pairs fields and names; None for any other name. */
  function LocationNamed(l: Locations, name: string): Option<GLuint> {
    if name == "uQuality" then Some(l.quality)
    else if name == "uCameraPosition" then Some(l.cameraPosition)
    else if name == "uCameraVelocity" then Some(l.cameraVelocity)
    else if name == "uTime" then Some(l.time)
    else if name == "uX" then Some(l.x)
    else if name == "uY" then Some(l.y)
    else if name == "uWidth" then Some(l.width)
    else if name == "uHeight" then Some(l.height)
    else if name == "uZoom" then Some(l.zoom)
    else if name == "uScroll" then Some(l.scroll)
    else if name == "uBattery" then Some(l.battery)
    else if name == "uVolume" then Some(l.volume)
    else if name == "uMaxVolume" then Some(l.maxVolume)
    else if name == "uKeyStates" then Some(l.keyStates)
    else if name == "uJoyStates" then Some(l.joyStates)
    else if name == "uSampleStates" then Some(l.sampleStates)
    else if name == "uUserTextures" then Some(l.userTextures)
    else None
  }

  /** The upload each uniform would get, in the order the code tests them:
      the `a`-th goes to the location looked up under the `a`-th name. */
  function Slots(u: ShaderUniforms): (r: seq<Upload>)
    ensures |r| == |UniformNames|
    ensures forall a :: 0 <= a < |r| ==> LocationNamed(u.loc, UniformNames[a]) == Some(r[a].location)
  {
    var l := u.loc;
    [ Uniform1f(l.quality, u.quality),
      Uniform3fv(l.cameraPosition, 1, u.cameraPosition),
      Uniform3fv(l.cameraVelocity, 1, u.cameraVelocity),
      Uniform1f(l.time, u.time),
      Uniform1f(l.x, u.x),
      Uniform1f(l.y, u.y),
      Uniform1f(l.width, u.width),
      Uniform1f(l.height, u.height),
      Uniform1f(l.zoom, u.zoom),
      Uniform1f(l.scroll, u.scroll),
      Uniform1f(l.battery, u.battery),
      Uniform1f(l.volume, u.volume),
      Uniform1f(l.maxVolume, u.maxVolume),
      Uniform1iv(l.keyStates, KeyCount, u.keyStates),
      Uniform1iv(l.joyStates, KeyCount, u.joyStates),
      Uniform1iv(l.sampleStates, SampleCount, u.sampleStates),
      Uniform1iv(l.userTextures, TextureUnits, UnitIndices()) ]
  }

  /** The writes for the uploads whose location is not the absent one, in
      order. */
  function Uploads(slots: seq<Upload>): (r: seq<Call>)
    ensures |r| <= |slots|
    ensures forall k :: 0 <= k < |r| ==> r[k].Write? && r[k].upload.location != AbsentLocation
  {
    if slots == [] then []
    else (if slots[0].location != AbsentLocation then [Write(slots[0])] else []) + Uploads(slots[1..])
  }

  /** The texture loop from unit `i` on: a unit is activated and its texture
      bound only when its id is not 0. */
  function Binds(ids: seq<GLuint>, i: nat): (r: seq<Call>)
    requires i <= |ids|
    ensures |r| <= 2 * (|ids| - i)
    ensures forall k :: 0 <= k < |r| && r[k].ActiveTexture? ==> i <= r[k].unit < |ids| && ids[r[k].unit] != 0
    decreases |ids| - i
  {
    if i == |ids| then []
    else (if ids[i] != 0 then [ActiveTexture(i), BindTexture(Texture2D, ids[i])] else []) + Binds(ids, i + 1)
  }

  /** The calls made for the given slots and texture ids: the writes, the
      texture bindings, and `glUseProgram(0)`. */
  function Trace(slots: seq<Upload>, ids: seq<GLuint>): (r: seq<Call>)
    ensures 0 < |r| <= |slots| + 2 * |ids| + 1 && r[|r| - 1] == UseProgram(0)
  {
    Uploads(slots) + Binds(ids, 0) + [UseProgram(0)]
  }

  /** `shaderUniformsLoad(u, program)`. The program argument is never used. */
  function Load(u: ShaderUniforms): (r: seq<Call>)
    requires WellSized(u)
    ensures 0 < |r| <= |UniformNames| + 2 * TextureUnits + 1 && r[|r| - 1] == UseProgram(0)
  {
    Trace(Slots(u), u.userTexturesId)
  }

  // ---------------------------------------------------------------------
  // Locations.

  /** The stored location is the absent one exactly when the driver
      answered -1. */
  lemma AbsentIffMinusOne(loc: int32)
    ensures StoredLocation(loc) == AbsentLocation <==> loc == -1
  {
  }

  // ---------------------------------------------------------------------
  // The uploads.

  /** A write is made exactly for the slots whose location is present. */
  lemma {:induction false} UploadsArePresentSlots(slots: seq<Upload>)
    ensures forall c :: c in Uploads(slots) ==> c.Write?
    ensures forall w :: Write(w) in Uploads(slots) <==> w in slots && w.location != AbsentLocation
    decreases |slots|
  {
    if slots != [] {
      UploadsArePresentSlots(slots[1..]);
      assert forall w :: w in slots <==> w == slots[0] || w in slots[1..];
    }
  }

  /** The slot the `i`-th write comes from. */
  function SlotOf(slots: seq<Upload>, i: nat): (a: nat)
    requires i < |Uploads(slots)|
    ensures a < |slots| && Uploads(slots)[i] == Write(slots[a]) && slots[a].location != AbsentLocation
    decreases |slots|
  {
    var head := if slots[0].location != AbsentLocation then 1 else 0;
    if i < head then 0 else 1 + SlotOf(slots[1..], i - head)
  }

  /** The position, among the writes, of the write for the present slot
      `a`: every present slot has one. */
  function WriteOf(slots: seq<Upload>, a: nat): (i: nat)
    requires a < |slots| && slots[a].location != AbsentLocation
    ensures i < |Uploads(slots)| && SlotOf(slots, i) == a
    decreases |slots|
  {
    var head := if slots[0].location != AbsentLocation then 1 else 0;
    if a == 0 then 0 else head + WriteOf(slots[1..], a - 1)
  }

  /** The writes come in the order of their slots. */
  lemma {:induction false} UploadsKeepSlotOrder(slots: seq<Upload>, i: nat, j: nat)
    requires i < j < |Uploads(slots)|
    ensures SlotOf(slots, i) < SlotOf(slots, j)
    decreases |slots|
  {
    var head := if slots[0].location != AbsentLocation then 1 else 0;
    if head <= i {
      UploadsKeepSlotOrder(slots[1..], i - head, j - head);
    }
  }

  /** Writes and present slots correspond one to one: the write found for
      the slot of the `i`-th write is the `i`-th write itself. */
  lemma WritesMatchPresentSlots(slots: seq<Upload>)
    ensures forall i :: 0 <= i < |Uploads(slots)| ==> WriteOf(slots, SlotOf(slots, i)) == i
  {
    forall i | 0 <= i < |Uploads(slots)|
      ensures WriteOf(slots, SlotOf(slots, i)) == i
    {
      var j := WriteOf(slots, SlotOf(slots, i));
      if j < i {
        UploadsKeepSlotOrder(slots, j, i);
      } else if i < j {
        UploadsKeepSlotOrder(slots, i, j);
      }
    }
  }

  /** Texture loop calls are not writes. */
  lemma {:induction false} BindsAreNotUploads(ids: seq<GLuint>, i: nat)
    requires i <= |ids|
    ensures forall c :: c in Binds(ids, i) ==> c.ActiveTexture? || c.BindTexture?
    decreases |ids| - i
  {
    if i < |ids| {
      BindsAreNotUploads(ids, i + 1);
    }
  }

  /** The writes of a trace are the writes of its present slots, one write
      per present slot: the write at position `k` is that of slot
      SlotOf(slots, k), the slot `a` is written at position WriteOf(slots,
      a), and the two positions agree. */
  lemma TraceWrites(slots: seq<Upload>, ids: seq<GLuint>)
    ensures forall w :: Write(w) in Trace(slots, ids) <==> w in slots && w.location != AbsentLocation
    ensures var t := Trace(slots, ids);
      forall k :: 0 <= k < |t| && t[k].Write? ==>
        k < |Uploads(slots)| && t[k] == Write(slots[SlotOf(slots, k)]) && WriteOf(slots, SlotOf(slots, k)) == k
    ensures var t := Trace(slots, ids);
      forall a :: 0 <= a < |slots| && slots[a].location != AbsentLocation ==>
        WriteOf(slots, a) < |t| && t[WriteOf(slots, a)] == Write(slots[a])
  {
    var t := Trace(slots, ids);
    var b := Binds(ids, 0);
    UploadsArePresentSlots(slots);
    BindsAreNotUploads(ids, 0);
    WritesMatchPresentSlots(slots);
    TraceLayout(slots, ids);
    forall k | |Uploads(slots)| <= k < |t|
      ensures !t[k].Write?
    {
      if k < |t| - 1 {
        assert t[k] == b[k - |Uploads(slots)|] && b[k - |Uploads(slots)|] in b;
      }
    }
  }

  /** A uniform is written exactly when its location is present, once, and
      no call writes the absent location. */
  lemma UploadIffPresent(u: ShaderUniforms)
    requires WellSized(u)
    ensures forall w :: Write(w) in Load(u) <==> w in Slots(u) && w.location != AbsentLocation
    ensures var t := Load(u); var s := Slots(u);
      forall k :: 0 <= k < |t| && t[k].Write? ==>
        k < |Uploads(s)| && t[k] == Write(s[SlotOf(s, k)]) && WriteOf(s, SlotOf(s, k)) == k
    ensures var t := Load(u); var s := Slots(u);
      forall a :: 0 <= a < |s| && s[a].location != AbsentLocation ==>
        WriteOf(s, a) < |t| && t[WriteOf(s, a)] == Write(s[a])
  {
    TraceWrites(Slots(u), u.userTexturesId);
  }

  /** The array uploads of a well-sized structure pass as many elements as
      their count says. */
  lemma SlotCounts(u: ShaderUniforms)
    requires WellSized(u)
    ensures forall w :: w in Slots(u) && w.Uniform3fv? ==> w.count == 1 && |w.values| == 3
    ensures forall w :: w in Slots(u) && w.Uniform1iv? ==>
      |w.ints| == w.count && (w.count == KeyCount || w.count == SampleCount)
  {
  }

  /** Every array upload passes as many elements as its count says: three
      floats per vector, 32 key and joystick states, 128 samples, 32 units. */
  lemma ArrayCountsMatch(u: ShaderUniforms)
    requires WellSized(u)
    ensures forall w :: Write(w) in Load(u) && w.Uniform3fv? ==> w.count == 1 && |w.values| == 3
    ensures forall w :: Write(w) in Load(u) && w.Uniform1iv? ==>
      |w.ints| == w.count && (w.count == KeyCount || w.count == SampleCount)
  {
    TraceWrites(Slots(u), u.userTexturesId);
    SlotCounts(u);
  }

  /** The upload in slot `a` is made exactly when its location is present. */
  lemma SlotWritten(u: ShaderUniforms, a: nat, w: Upload)
    requires WellSized(u) && a < |Slots(u)| && Slots(u)[a] == w
    ensures w.location != AbsentLocation <==> Write(w) in Load(u)
  {
    TraceWrites(Slots(u), u.userTexturesId);
  }

  /** The key and joystick states, when present, are written with count 32
      and their own arrays, and the sample states with count 128 and the
      samples. */
  lemma StateArraysGetTheirCounts(u: ShaderUniforms)
    requires WellSized(u)
    ensures u.loc.keyStates != AbsentLocation <==>
      Write(Uniform1iv(u.loc.keyStates, KeyCount, u.keyStates)) in Load(u)
    ensures u.loc.joyStates != AbsentLocation <==>
      Write(Uniform1iv(u.loc.joyStates, KeyCount, u.joyStates)) in Load(u)
    ensures u.loc.sampleStates != AbsentLocation <==>
      Write(Uniform1iv(u.loc.sampleStates, SampleCount, u.sampleStates)) in Load(u)
  {
    SlotWritten(u, 13, Uniform1iv(u.loc.keyStates, KeyCount, u.keyStates));
    SlotWritten(u, 14, Uniform1iv(u.loc.joyStates, KeyCount, u.joyStates));
    SlotWritten(u, 15, Uniform1iv(u.loc.sampleStates, SampleCount, u.sampleStates));
  }

  /** The camera vectors, when present, are written with count 1 and their
      own three floats. */
  lemma CameraVectorsGetTheirValues(u: ShaderUniforms)
    requires WellSized(u)
    ensures u.loc.cameraPosition != AbsentLocation <==>
      Write(Uniform3fv(u.loc.cameraPosition, 1, u.cameraPosition)) in Load(u)
    ensures u.loc.cameraVelocity != AbsentLocation <==>
      Write(Uniform3fv(u.loc.cameraVelocity, 1, u.cameraVelocity)) in Load(u)
  {
    SlotWritten(u, 1, Uniform3fv(u.loc.cameraPosition, 1, u.cameraPosition));
    SlotWritten(u, 2, Uniform3fv(u.loc.cameraVelocity, 1, u.cameraVelocity));
  }

  /** The sampler array, when present, receives the units 0 to 31. */
  lemma SamplerGetsUnits(u: ShaderUniforms)
    requires WellSized(u)
    ensures u.loc.userTextures != AbsentLocation <==>
      Write(Uniform1iv(u.loc.userTextures, TextureUnits, UnitIndices())) in Load(u)
  {
    TraceWrites(Slots(u), u.userTexturesId);
    assert Slots(u)[16] == Uniform1iv(u.loc.userTextures, TextureUnits, UnitIndices());
  }

  // ---------------------------------------------------------------------
  // The texture loop.

  /** Unit `unit` is activated exactly when it is one the loop visits and
      its texture id is not 0. */
  lemma {:induction false} BindsActivateNonzero(ids: seq<GLuint>, i: nat)
    requires i <= |ids|
    ensures forall unit: nat :: ActiveTexture(unit) in Binds(ids, i) <==> i <= unit < |ids| && ids[unit] != 0
    decreases |ids| - i
  {
    if i < |ids| {
      var rest := Binds(ids, i + 1);
      BindsActivateNonzero(ids, i + 1);
      if ids[i] != 0 {
        var p := [ActiveTexture(i), BindTexture(Texture2D, ids[i])];
        assert Binds(ids, i) == p + rest;
        assert forall c :: c in p + rest <==> c in p || c in rest;
      } else {
        assert Binds(ids, i) == rest;
      }
    }
  }

  /** Each activation is followed by the binding of that unit's texture,
      every other call is such a binding, and the units rise. */
  ghost predicate PairedAscending(ids: seq<GLuint>, b: seq<Call>) {
    && (forall k :: 0 <= k < |b| ==> b[k].ActiveTexture? || b[k].BindTexture?)
    && (forall k :: 0 <= k < |b| && b[k].ActiveTexture? ==>
          k + 1 < |b| && b[k].unit < |ids| && b[k + 1] == BindTexture(Texture2D, ids[b[k].unit]))
    && (forall k :: 0 <= k < |b| && b[k].BindTexture? ==> 0 < k && b[k - 1].ActiveTexture?)
    && (forall j, k :: 0 <= j < k < |b| && b[j].ActiveTexture? && b[k].ActiveTexture? ==> b[j].unit < b[k].unit)
  }

  /** Prepending an activation/binding pair for a unit below every unit of
      `b` keeps the pairing and the order. */
  lemma PairedAscendingCons(ids: seq<GLuint>, i: nat, b: seq<Call>)
    requires i < |ids| && PairedAscending(ids, b)
    requires forall k :: 0 <= k < |b| && b[k].ActiveTexture? ==> i < b[k].unit
    ensures PairedAscending(ids, [ActiveTexture(i), BindTexture(Texture2D, ids[i])] + b)
  {
    var p := [ActiveTexture(i), BindTexture(Texture2D, ids[i])];
    var r := p + b;
    assert forall k :: 2 <= k < |r| ==> r[k] == b[k - 2];
  }

  /** The texture loop's calls pair up in ascending unit order. */
  lemma {:induction false} BindsPairedAscending(ids: seq<GLuint>, i: nat)
    requires i <= |ids|
    ensures PairedAscending(ids, Binds(ids, i))
    decreases |ids| - i
  {
    if i < |ids| {
      var rest := Binds(ids, i + 1);
      BindsPairedAscending(ids, i + 1);
      if ids[i] != 0 {
        PairedAscendingCons(ids, i, rest);
      } else {
        assert Binds(ids, i) == rest;
      }
    }
  }

  /** Where the texture loop sits in a trace: after the writes, which are
      all writes, and before the final `glUseProgram(0)`. */
  lemma TraceLayout(slots: seq<Upload>, ids: seq<GLuint>)
    ensures var t := Trace(slots, ids); var n := |Uploads(slots)|; var b := Binds(ids, 0);
      && |t| == n + |b| + 1
      && (forall k :: 0 <= k < n ==> t[k].Write?)
      && (forall k :: n <= k < n + |b| ==> t[k] == b[k - n])
      && t[|t| - 1] == UseProgram(0)
  {
    var up := Uploads(slots);
    var t := Trace(slots, ids);
    UploadsArePresentSlots(slots);
    forall k | 0 <= k < |up|
      ensures t[k].Write?
    {
      assert t[k] == up[k] && up[k] in up;
    }
  }

  /** In a trace, a unit is activated exactly when its texture id is not 0,
      and no texture 0 is bound. */
  lemma TraceActivatesNonzero(slots: seq<Upload>, ids: seq<GLuint>)
    ensures forall unit: nat :: ActiveTexture(unit) in Trace(slots, ids) <==> unit < |ids| && ids[unit] != 0
    ensures forall c :: c in Trace(slots, ids) && c.BindTexture? ==> c.target == Texture2D && c.texture != 0
  {
    var b := Binds(ids, 0);
    var t := Trace(slots, ids);
    var n := |Uploads(slots)|;
    UploadsArePresentSlots(slots);
    BindsActivateNonzero(ids, 0);
    BindsPairedAscending(ids, 0);
    TraceLayout(slots, ids);
    forall c | c in t && c.BindTexture?
      ensures c.target == Texture2D && c.texture != 0
    {
      var k :| 0 <= k < |t| && t[k] == c;
      assert t[k] == b[k - n];
      assert b[k - n - 1].ActiveTexture?;
    }
  }

  /** In a trace, each activation is directly followed by the binding of
      that unit's texture. */
  lemma TraceBindsAfterActivation(slots: seq<Upload>, ids: seq<GLuint>)
    ensures var t := Trace(slots, ids);
      forall k :: 0 <= k < |t| && t[k].ActiveTexture? ==>
        k + 1 < |t| && t[k].unit < |ids| && t[k + 1] == BindTexture(Texture2D, ids[t[k].unit])
  {
    var b := Binds(ids, 0);
    var t := Trace(slots, ids);
    var n := |Uploads(slots)|;
    BindsPairedAscending(ids, 0);
    TraceLayout(slots, ids);
    forall k | 0 <= k < |t| && t[k].ActiveTexture?
      ensures k + 1 < |t| && t[k].unit < |ids| && t[k + 1] == BindTexture(Texture2D, ids[t[k].unit])
    {
      assert t[k] == b[k - n];
    }
  }

  /** In a trace, units are activated in ascending order. */
  lemma TraceActivatesAscending(slots: seq<Upload>, ids: seq<GLuint>)
    ensures var t := Trace(slots, ids);
      forall j, k :: 0 <= j < k < |t| && t[j].ActiveTexture? && t[k].ActiveTexture? ==> t[j].unit < t[k].unit
  {
    var b := Binds(ids, 0);
    var t := Trace(slots, ids);
    var n := |Uploads(slots)|;
    BindsPairedAscending(ids, 0);
    TraceLayout(slots, ids);
    forall j, k | 0 <= j < k < |t| && t[j].ActiveTexture? && t[k].ActiveTexture?
      ensures t[j].unit < t[k].unit
    {
      assert t[j] == b[j - n] && t[k] == b[k - n];
    }
  }

  /** A trace always ends with `glUseProgram(0)`, and that is its only
      `glUseProgram`. */
  lemma TraceEndsWithUseProgram(slots: seq<Upload>, ids: seq<GLuint>)
    ensures var t := Trace(slots, ids);
      |t| > 0 && t[|t| - 1] == UseProgram(0) && forall k :: 0 <= k < |t| - 1 ==> !t[k].UseProgram?
  {
    var up := Uploads(slots);
    var b := Binds(ids, 0);
    var t := Trace(slots, ids);
    UploadsArePresentSlots(slots);
    BindsAreNotUploads(ids, 0);
    forall k | 0 <= k < |t| - 1
      ensures !t[k].UseProgram?
    {
      if k < |up| {
        assert t[k] == up[k] && up[k] in up;
      } else {
        assert t[k] == b[k - |up|] && b[k - |up|] in b;
      }
    }
  }
}

=== FILE: wrappers.dfy ===
/** Failure-compatible wrappers: `Option` for a C pointer that may be null,
    `Result` for an operation that may fail or throw. */
module Wrappers {

  datatype Option<+T> = None | Some(value: T) {
    predicate IsFailure() {
      None?
    }

    function PropagateFailure<U>(): Option<U>
      requires None?
    {
      None
    }

    function Extract(): T
      requires Some?
    {
      value
    }
  }

  datatype Result<+R, +E> = Success(value: R) | Failure(error: E) {
    predicate IsFailure() {
      Failure?
    }

    function PropagateFailure<U>(): Result<U, E>
      requires Failure?
    {
      Failure(error)
    }

    function Extract(): R
      requires Success?
    {
      value
    }
  }
}
